=== FILE: README.md ===
# Spotify Stream Deck plugin — a Dafny model of its decision rules

This project models the logic of a Stream Deck plugin that controls
Spotify. The I/O is left out and only the decision rules that sit under it
are modelled:

- the OAuth credential manager of `src/spotify-auth.ts`. It covers:
  - `.env` parsing and `getEnv`;
  - `isAuthorized`;
  - the refresh test of `getAccessToken`;
  - `setTokens`, the proactive refresh delay, and refresh failures;
  - `disconnect` and `loadTokens`;
  - the loopback callback of `authorize`. This is the authorization-code grant of section 4.1 of RFC 6749, the refresh of section 6, and the `state` check of section 10.12.
- the request policy of `src/spotify-api.ts`. It covers:
  - the bounded 429 retry loop of `apiFetch`. The status is from section 4 of RFC 6585, and `Retry-After` is from section 10.2.3 of RFC 9110;
  - the `getCurrentTrack` status rules;
  - the outcome of library and playlist mutations;
  - the playlist paging accumulator, with track-count normalisation;
  - the playlist cache with its TTL, error cooldown and in-flight slot;
  - the two-legged like+add result.
- the per-key state machines of the four key actions:
  - `isDone` in like-and-add;
  - `inPlaylist` in add-to-playlist;
  - `isLiked` in like-track;
  - the `busy` guard of authorize;
  - the `trunc` title helper.

Everything is a pure function of explicit inputs. The network is given as a script of replies, where `None` is a request whose promise rejects. The filesystem is given as what a read would find. The clock is a `now` in milliseconds. A pending timer is the delay it was set with. Functions imported by the actions that `spotify-api.ts` does not define (`isRateLimited`, `isTrackInPlaylist`, `removeItemsFromPlaylist`, `unlikeAndRemoveFromPlaylist`) are opaque inputs: a flag, a `Result`, or a settled outcome.

Modules:

- `Wrappers`: `Option`, `Result`, `Outcome`.
- `Http`: the response status class, and a response with its status, its `Retry-After` and its parsed body.
- `Text`: `trunc` and the decimal rendering of a status.
- `EnvFile`: `String.prototype.trim`, `indexOf`, `split("\n")`, the `.env` fold, `loadEnv` and `getEnv`.
- `Credentials`: the token manager.
- `AuthFlow`: the callback listener of `authorize` as a state machine over events.
- `ApiClient`: `apiFetch`, `getCurrentTrack`, and how mutations settle.
- `Playlists`: paging, normalisation and the cache.
- `Composite`: `likeAndAddToPlaylist`.
- `ActionKit`: what the key handlers share.
- `LikeAndAddKey`, `AddToPlaylistKey`, `LikeTrackKey`, `AuthorizeKey`: one module per action.

Behaviour of the code a reader might not expect:

- `getAccessToken` does not coalesce concurrent refreshes. Each caller that finds the token near expiry starts its own refresh, so there is no shared in-flight refresh in `Credentials`.
- The playlist error cooldown starts whenever a page fails before anything has been gathered. That includes a later page after earlier pages returned no entries, not only the first page.
- A failure thrown by `apiFetch` itself (no token, or a rejected request) propagates out of `fetchPlaylistsInternal` without setting `lastFetchError`. Such a listing is `Escaped`, and it leaves the cooldown as it was.
- `lastFetchError` is read for its truthiness, so an error recorded at time 0 starts no cooldown (`Playlists.CoolingDown`).
- The 300 s timeout is never cleared and does not cancel an exchange that is already awaited. If it fires during `exchangeCode`, the promise rejects with "timed out", yet the exchange still installs the credential, answers 200 and runs the "authorized" observers (`AuthFlow.TimeoutDuringExchange`).
- `refresh_token ?? previous` skips only a missing value. A response carrying `""` replaces the stored refresh token, and the manager stops being authorized (`Credentials.RefreshTokenNeverLost` requires a response that does not do that).

## Model

| member | source | states |
|---|---|---|
| Text.Trunc | src/actions/like-and-add.ts:199-201 | A name of at most n characters is kept. A longer one becomes its first n-1 characters followed by `…`, so it has exactly n characters. For n = 0 the result is `…` alone, because `substring(0, -1)` is empty. |
| EnvFile.Trim | src/spotify-auth.ts:26 | The result has no surrounding JavaScript white space. It is empty exactly when the line is all white space, and an already trimmed line comes back unchanged. |
| EnvFile.TrimIsSlice | src/spotify-auth.ts:26 | What trim keeps is one contiguous slice of the line, and everything it cuts from either end is white space. |
| EnvFile.TrimIdempotent | src/spotify-auth.ts:26 | Trimming twice is trimming once. |
| EnvFile.IndexOf | src/spotify-auth.ts:28 | `indexOf("=")` finds the first `=`. It is absent exactly when there is none, and no `=` comes before the position it finds. |
| EnvFile.IndexOfFirst | src/spotify-auth.ts:28 | Any position holding `=` with none before it is the one `indexOf` reports. |
| EnvFile.SplitLines | src/spotify-auth.ts:24 | `split("\n")` gives at least one line. No line contains a newline, and joining the lines with newlines gives back the file. |
| EnvFile.SplitJoinRoundTrip | src/spotify-auth.ts:24 | Splitting undoes joining for any non-empty list of newline-free lines. |
| EnvFile.ParseLine | src/spotify-auth.ts:26-31 | A line defines a variable exactly when, once trimmed, it is non-blank, does not start with `#`, and has its first `=` after index 0. The key and the value are both trimmed, and the key is non-empty. |
| EnvFile.ParseLineSplitsAtFirstEquals | src/spotify-auth.ts:28-30 | The key is the trimmed text before the first `=` of the trimmed line, and the value is the trimmed text after it. |
| EnvFile.ParseFormatRoundTrip | src/spotify-auth.ts:28-30 | `KEY=value` reads back as exactly that key and value, even when the value contains `=`. The key must be non-empty, must not contain `=` or start with `#`, and must be trimmed; the value must be trimmed. |
| EnvFile.KeysComeFromLines | src/spotify-auth.ts:25-32 | Every variable read from the file comes from a line of the file that defines it. |
| EnvFile.LastDefinitionWins | src/spotify-auth.ts:25-32 | A key's value is the one given by the last line that defines it. Later lines overwrite earlier ones. |
| EnvFile.ParseEnv | src/spotify-auth.ts:25-32 | An empty file defines nothing. Every key read is non-empty and trimmed, and so is its value. |
| EnvFile.LoadEnv | src/spotify-auth.ts:16-39 | With no readable candidate file, no variables are loaded. |
| EnvFile.LoadEnvReadsFirstReadable | src/spotify-auth.ts:21-37 | The variables are those of the first candidate file that exists and can be read. Missing or unreadable earlier candidates are skipped, and later candidates are never read. |
| EnvFile.GetEnv | src/spotify-auth.ts:52-54 | The `.env` value wins, then the process environment, then `""`. |
| EnvFile.EnvFileOverridesProcess | src/spotify-auth.ts:42-54 | The last definition of a variable in the `.env` file is what `getEnv` answers, whatever the process environment holds. |
| Credentials.RenewalDelay | src/spotify-auth.ts:215-218 | The delay `scheduleRefresh` computes is `max((expires_in - 120)·1000, 30000)` ms, so never less than 30 s (for Node's clamp of very long delays, see Left out). |
| Credentials.IsAuthorized | src/spotify-auth.ts:90-92 | The manager is authorized only while it holds a record, and then exactly when that record's refresh token is non-empty. |
| Credentials.NeedsRenewal | src/spotify-auth.ts:102 | `getAccessToken` renews exactly when at most 60 s of the token's lifetime remain, so always once it has expired. |
| Credentials.ScheduledRenewalPrecedesExpiryWindow | src/spotify-auth.ts:215-218 | For a grant of at least 150 s, the scheduled refresh fires exactly 120 s before expiry. At that time `getAccessToken` would not yet consider the token expiring. |
| Credentials.SetTokens | src/spotify-auth.ts:205-213 | The new record has the response's access token and expires `expires_in·1000` ms after now. Its refresh token is the response's; when the response has none, it is the previous refresh token, or `""` if there was none. The record is written to the token file, and the one pending refresh is replaced by a new delay. |
| Credentials.RefreshTokenNeverLost | src/spotify-auth.ts:205-210 | A refresh that omits `refresh_token` keeps the old one, so an authorized manager stays authorized. |
| Credentials.Disconnect | src/spotify-auth.ts:167-171 | The credential, the pending refresh and the token file are all gone, so the manager is not authorized. |
| Credentials.Renew | src/spotify-auth.ts:187-203 | Without a refresh token, the refresh fails before any request and changes nothing. It succeeds exactly on an OK response with a token body, and then installs it through `setTokens`. A 400 or 401 disconnects and fails. Any other failure leaves the manager as it was. |
| Credentials.GetAccessToken | src/spotify-auth.ts:98-107 | Without a record, it fails with "Not authorized". It refreshes first exactly when `now >= expires_at - 60000`, and otherwise returns the stored access token with nothing changed. When it refreshes, it succeeds exactly when the refresh does, and a failed refresh's error is the one it fails with. Any token it returns is the one the manager now holds. |
| Credentials.AccessTokenIsFresh | src/spotify-auth.ts:98-107 | A token handed out is more than 60 s from expiry, unless the refresh just made got an OK response granting a lifetime of 60 s or less. |
| Credentials.ExchangeCode | src/spotify-auth.ts:173-185 | The code exchange succeeds exactly on an OK response with a token body, and then installs it through `setTokens`. Otherwise it fails and changes nothing. |
| Credentials.RunScheduledRenewal | src/spotify-auth.ts:197-222 | After the scheduled refresh fires, a new refresh is pending exactly when that refresh succeeded, and then the credential and the token file are those `setTokens` writes. A 400 or 401 removes the credential and the file. Any other failure is only logged: the credential and the file stay as they were. |
| Credentials.LoadTokens | src/spotify-auth.ts:229-247 | A parsed record is kept even when it has expired. A refresh is scheduled exactly when the record expires after now, with the `scheduleRefresh` delay for the whole seconds remaining. A missing or unparsable file leaves no credential. |
| Credentials.SaveLoadRoundTrip | src/spotify-auth.ts:225-236 | A restart after `setTokens` loads the very record that was written, and is authorized exactly when the running manager was. |
| Credentials.DisconnectSurvivesRestart | src/spotify-auth.ts:167-171 | After `disconnect`, a restart finds no credential. |
| AuthFlow.Classify | src/spotify-auth.ts:116-131 | A path other than `/` is not a callback. A truthy `error` denies. The code is exchanged exactly when there is no error, the code is truthy, and the returned `state` equals the generated one. Everything else is invalid. |
| AuthFlow.ForgedStateRejected | src/spotify-auth.ts:127-131 | A callback whose `state` differs from the generated one is never exchanged. |
| AuthFlow.Start | src/spotify-auth.ts:112-113 | A new flow listens, is unsettled, awaits no exchange, and holds the manager it was given. |
| AuthFlow.Step | src/spotify-auth.ts:113-163 | The listener is open exactly while the flow is unsettled. Nobody is notified before it settles, and a connected flow has notified. A settled promise keeps its value. A closed listener with no exchange awaited ignores everything. The timeout closes the listener and rejects an open flow with "timed out", leaving the credential and awaited exchanges alone. Requests never change the credential; one starts an exchange only when it classifies as one, and then queues its code. The credential changes only when an awaited exchange is answered, and then the observers run once more. Each event answers at most one request. |
| AuthFlow.Run | src/spotify-auth.ts:112-164 | Over any sequence of events the flow stays consistent. A closed flow with no exchange awaited stays as it is, and a settled promise keeps its value. |
| AuthFlow.SettledIsFinal | src/spotify-auth.ts:125-163 | Once the listener is closed and no exchange is awaited, no later request or timeout changes the flow. |
| AuthFlow.SettlementIsFinal | src/spotify-auth.ts:112-163 | Once the promise settles, it keeps that value whatever follows, including exchanges that complete later. |
| AuthFlow.WrongPathsKeepListening | src/spotify-auth.ts:116 | Requests to other paths are each answered 404. The listener stays open, and the flow, the awaited exchanges and the credential are untouched. |
| AuthFlow.ForgedCallbackTearsDown | src/spotify-auth.ts:127-131 | A callback without an error but with no code, or with a state other than the generated one, is answered 400. It closes the listener and rejects the flow as invalid, and it leaves the credential untouched. |
| AuthFlow.DeniedCallbackTearsDown | src/spotify-auth.ts:122-126 | A callback carrying an error is answered 200, closes the listener and rejects the flow as denied, whatever code and state it holds. The credential is untouched and nobody is notified. |
| AuthFlow.ValidCallbackAwaitsExchange | src/spotify-auth.ts:116-133 | A callback with a code and the right state starts the exchange of that code. Nothing is answered yet, and the flow stays open and unsettled. |
| AuthFlow.ConnectedMeansExchanged | src/spotify-auth.ts:133-138 | An unsettled flow connects only when an awaited exchange is answered by an OK token response with a body. The observers then have run once, the page answers 200, and the manager holds `setTokens` of that response. |
| AuthFlow.OkExchangeConnects | src/spotify-auth.ts:133-138 | An OK token response with a body to an awaited exchange of an unsettled flow connects it: the page answers 200, the listener closes, the observers run once more and the manager holds `setTokens` of that response. |
| AuthFlow.FailedExchangeTearsDown | src/spotify-auth.ts:139-143 | A failed exchange of an unsettled flow (a rejected request, a non-OK status or a body that does not parse) is answered 500, closes the listener and rejects the flow. The credential is untouched and nobody is notified. |
| AuthFlow.TimeoutDuringExchange | src/spotify-auth.ts:133-137 | If the timeout fires while an exchange is awaited and the exchange then succeeds, the promise stays rejected as timed out. Yet the credential is installed, the observers run and the page answers 200. |
| ApiClient.Attempts | src/spotify-api.ts:11-44 | From any attempt, the loop sends at most the remaining number of requests (at least one while attempts remain). Every wait lies between 5 and 30 seconds, and each one answers a short 429 of the matching attempt with `max(hint, 5)` seconds. |
| ApiClient.RetryHint | src/spotify-api.ts:23 | The hint is the `Retry-After` value when the header is present, and 10 s when it is absent. |
| ApiClient.WaitFor | src/spotify-api.ts:29 | The wait is at least 5 s and at least the hint. It is the hint itself, or 5 s. |
| ApiClient.WaitAt | src/spotify-api.ts:22-32 | The i-th wait of the loop follows a 429 with a hint of 30 s or less at attempt i, and is that hint stretched to at least 5 s. |
| ApiClient.WaitsAreStretchedHints | src/spotify-api.ts:22-32 | Every wait from any attempt is `max(hint, 5)` of the short 429 it answers, at the matching attempt. |
| ApiClient.ApiFetch | src/spotify-api.ts:7-45 | The token is taken once, before the loop; if it cannot be had, no request is sent. Otherwise 1 to 3 requests are sent, with at most 3 waits of 5 to 30 s each. The i-th wait answers a 429 at request i whose hint is 30 s or less, and lasts `max(hint, 5)` seconds. |
| ApiClient.StopsAtFirstDecisiveReply | src/spotify-api.ts:22-39 | The loop stops at the first reply that is not a 429 with a hint of 30 s or less. It makes one request per attempt up to that one and waits `max(hint, 5)` seconds once per retry. It returns that reply unchanged, or fails if the request rejected. |
| ApiClient.ExhaustedRetries | src/spotify-api.ts:11-44 | When every attempt meets a 429 with a hint of 30 s or less, three requests and three waits occur, each wait `max(hint, 5)` seconds. The result is a synthetic 429 with no body and no header. |
| ApiClient.LongRetryAfterFailsFast | src/spotify-api.ts:22-28 | A 429 whose hint exceeds 30 s is returned at once, after one request and no wait. |
| ApiClient.Non429ReturnedAsIs | src/spotify-api.ts:35-39 | Any non-429 reply, OK or not, is returned on the attempt it arrives. |
| ApiClient.ShortHintWaitsAtLeastFive | src/spotify-api.ts:29-32 | A first 429 with a hint of 30 s or less is retried after `max(hint, 5)` seconds, so a hint below 5 s becomes a 5 s wait. |
| ApiClient.CurrentTrack | src/spotify-api.ts:67-81 | 204 and 202 mean nothing is playing. Any other non-OK status fails with `Get current track: <status>`. An OK reply whose body does not parse fails. An OK body whose type is not `"track"` means nothing is playing. A track is returned exactly for an OK body whose type is `"track"`, and it is that body. A failure of `apiFetch` propagates. |
| ApiClient.Mutation | src/spotify-api.ts:89-98 | Saving or removing fulfills exactly on an OK status. Otherwise it rejects with `"<what>: <status>"`, or with the error that escaped `apiFetch`. |
| Playlists.Normalize | src/spotify-api.ts:151-156 | The track count is `total` of `tracks`, or of `items` when `tracks` is absent, and 0 when neither gives one. The id and name are carried over. |
| Playlists.NormalizePage | src/spotify-api.ts:148-157 | Null entries are dropped and no entry is invented. A page with no null entries keeps its length. |
| Playlists.NormalizePageOne | src/spotify-api.ts:148-156 | A single non-null item becomes its normalised entry, and a null item becomes nothing. |
| Playlists.NormalizePageMembers | src/spotify-api.ts:148-157 | An entry is on the page exactly when it is the normalised form of some non-null item. |
| Playlists.NormalizePageConcat | src/spotify-api.ts:148-157 | Normalising keeps page order: the entries of two runs of items are those of the first followed by those of the second. |
| Playlists.PageLoop | src/spotify-api.ts:136-161 | From page p, at most one request goes out per remaining page, at consecutive offsets 50 apart. The good pages come first, and every good page but the last requested one had a `next` link. A completed listing is what was gathered before plus the entries of those good pages, in order. The page that stopped the loop decides the end: a rejected fetch or an unparsable OK body escapes; a non-OK status with nothing gathered records that status; otherwise the listing completes. |
| Playlists.FetchPlaylists | src/spotify-api.ts:133-167 | It sends 1 to 4 requests, at offsets 0, 50, 100 and 150. A completed listing is the entries of the good pages in page order. It escapes exactly when the stopping page was a rejected fetch or an OK reply without a body. It fails for a status exactly when the stopping page had a non-OK status and nothing had been gathered. |
| Playlists.StopsWithoutNext | src/spotify-api.ts:159 | A good page without a `next` link ends the listing there, after one request. |
| Playlists.PartialListingKept | src/spotify-api.ts:138-143 | A page that fails after something was gathered ends the listing with what was gathered, and that partial listing counts as complete. |
| Playlists.FailedFirstPageFails | src/spotify-api.ts:137-145 | A non-OK first page ends the listing after one request, failing with that page's status. |
| Playlists.Decide | src/spotify-api.ts:107-123 | A cache younger than 120 s is served first. Otherwise, within 60 s of a recorded error, the cache (even stale) or `[]` is served. Otherwise a caller joins the fetch in flight, or starts one. |
| Playlists.CoolingDown | src/spotify-api.ts:114 | The cooldown runs exactly when an error time is recorded (non-zero) and less than 60 s have passed since it. An error time of 0 never starts one. |
| Playlists.Begin | src/spotify-api.ts:119-125 | Only a started fetch takes the in-flight slot. Every other decision leaves the state alone. |
| Playlists.Finish | src/spotify-api.ts:125-166 | The in-flight slot is released on every outcome. A completed listing, even a partial one, replaces the cache with a fresh timestamp and clears the error time. A failure with nothing gathered keeps the cache and records the error time. An escaped failure changes neither. |
| Playlists.NoSecondFetchInFlight | src/spotify-api.ts:119-125 | While a fetch is in flight, a later caller joins it instead of starting another. |
| Playlists.CacheServesWithinTtl | src/spotify-api.ts:108-111 | Within 120 s of a completed fetch, a call is served that listing from the cache. |
| Playlists.CooldownAfterFailure | src/spotify-api.ts:113-117 | Within 60 s of a fetch that failed with nothing gathered, a call is served the old cache, or `[]`, without fetching. |
| Playlists.GetUserPlaylists | src/spotify-api.ts:107-166 | A call fetches (1 to 4 pages) exactly when the cache is stale and no cooldown runs. Otherwise it returns what is on hand and changes nothing. A completed listing is cached with the time the listing ended and returned, and the error time is cleared. A failure with nothing gathered keeps the cache and records the time the listing ended. An escaped failure rejects and leaves both the cache and the error time as they were. The in-flight slot is free afterwards. |
| Playlists.FailedFirstPageStartsCooldown | src/spotify-api.ts:113-145 | A fetch whose first page fails rejects, and for the next 60 s after it ended, calls are served the old cache (or `[]`) without fetching. |
| Composite.Combine | src/spotify-api.ts:182-202 | Each flag reflects its own leg only. There is one error per rejected leg, `Like:` before `Playlist:`, so the list is empty exactly when both flags are true. |
| Composite.LikeAndAddToPlaylist | src/spotify-api.ts:178-203 | `liked` is true exactly when saving got an OK status, and `addedToPlaylist` exactly when adding did. There are at most two errors, and nothing is thrown. |
| Composite.ErrorsNameTheFailedLegs | src/spotify-api.ts:187-196 | An error labelled `Like:` is present exactly when the like leg failed, and one labelled `Playlist:` exactly when the playlist leg failed. |
| ActionKit.PlayingItem | src/actions/like-and-add.ts:69-70 | `cur?.item` is a track exactly when a track body with an item was read. A failed read stays a failure. |
| LikeAndAddKey.SettingsChanged | src/actions/like-and-add.ts:42-46 | A settings change forgets the last track and clears `isDone`. |
| LikeAndAddKey.KeyDown | src/actions/like-and-add.ts:52-155 | Unauthorized or playlist-less presses change nothing and call nothing. `isDone` changes only when a track was read. Like+add is called only when not done and the track is not both liked and listed. Undo is called only when done. A failed check or a failed undo leaves the key's state as it was. |
| LikeAndAddKey.AlreadyDoneSkipsLikeAndAdd | src/actions/like-and-add.ts:104-120 | A track already liked and in the playlist makes the key done without calling like+add. |
| LikeAndAddKey.DoneIffAdded | src/actions/like-and-add.ts:122-144 | After like+add, the key is done exactly when the playlist leg succeeded. A like-only success leaves it not done. |
| LikeAndAddKey.UndoClearsDoneIffRemoved | src/actions/like-and-add.ts:79-102 | After the undo, the key leaves done exactly when removal succeeded or nothing failed. An unlike-only success leaves it done. |
| LikeAndAddKey.Poll | src/actions/like-and-add.ts:160-186 | An authorized, unthrottled poll with a playlist that reads a new track records its URI, and unless rate-limited by then, sets `isDone` to `liked && inPlaylist` when the check answers. `isDone` changes in no other case, and the URI is recorded in no other case. |
| LikeAndAddKey.SecondPollOnSameTrackIsInert | src/actions/like-and-add.ts:169-182 | A poll that sees the same track again changes nothing. |
| LikeAndAddKey.SettingsChangeForcesRecheck | src/actions/like-and-add.ts:42-46 | After a settings change, the next poll re-checks whatever is playing and adopts the result. |
| AddToPlaylistKey.SettingsChanged | src/actions/add-to-playlist.ts:35-40 | A settings change forgets the last track and clears `inPlaylist`. |
| AddToPlaylistKey.KeyDown | src/actions/add-to-playlist.ts:46-104 | Unauthorized or playlist-less presses change nothing and call nothing. Remove is called only when the track is listed, and add only when it is not listed and not already present. The flag leaves true only after a fulfilled removal, and becomes true only when the track is present or the addition got an OK status. |
| AddToPlaylistKey.AlreadyInSkipsAdd | src/actions/add-to-playlist.ts:76-86 | A track already present makes the key listed without adding it. |
| AddToPlaylistKey.PressTogglesIffCallSucceeds | src/actions/add-to-playlist.ts:66-103 | With a track playing, a press flips `inPlaylist` exactly when its removal or addition succeeded. A failed call leaves the flag as it was. |
| AddToPlaylistKey.Poll | src/actions/add-to-playlist.ts:109-131 | An authorized, unthrottled poll with a playlist that reads a new track records its URI, and unless rate-limited by then, sets `inPlaylist` to the membership answer when the check answers. `inPlaylist` changes in no other case, and the URI is recorded in no other case. |
| AddToPlaylistKey.SecondPollOnSameTrackIsInert | src/actions/add-to-playlist.ts:118-127 | A poll that sees the same track again changes nothing. |
| LikeTrackKey.RestingTitle | src/actions/like-track.ts:53-55 | The title returns to `"Liked"` exactly when liked, and to `"Like"` exactly when not. |
| LikeTrackKey.KeyDown | src/actions/like-track.ts:23-65 | `isLiked` flips exactly when authorized, a track is playing, and the save or remove got an OK status. Remove is called only while liked and save only while not. An unauthorized press calls nothing and schedules no title. |
| LikeTrackKey.TwoPressesRestore | src/actions/like-track.ts:38-50 | Two successful presses on the same track return the key to where it started. |
| LikeTrackKey.Poll | src/actions/like-track.ts:70-86 | An authorized poll that reads a track records its URI. On a new track it sets `isLiked` to the library's answer when the check answers. `isLiked` changes in no other case, and the URI is recorded only for an authorized poll with a track. |
| LikeTrackKey.SecondPollOnSameTrackIsInert | src/actions/like-track.ts:76-79 | A poll that sees the same track again changes nothing, so the library is read once per track. |
| LikeTrackKey.NewTrackAdoptsLibrary | src/actions/like-track.ts:76-82 | A poll that sees a new track adopts the saved flag, and the resting title follows it. |
| AuthorizeKey.AppearTitle | src/actions/authorize.ts:8-10 | The appear-time title is `"Connected"` exactly when authorized. |
| AuthorizeKey.Press | src/actions/authorize.ts:12-24 | A press while busy does nothing. A press while authorized disconnects. A flow starts exactly when neither holds, and the key is then busy. |
| AuthorizeKey.AfterFlow | src/actions/authorize.ts:25-33 | When the flow settles, `busy` is cleared on success and on failure. The title is `"Connected"` exactly on success and `"Failed"` exactly on failure. |
| AuthorizeKey.BusyGuardsTheFlow | src/actions/authorize.ts:13-33 | While a flow runs, another press is ignored. Once it settles, presses are taken again. |
| AuthorizeKey.ConnectedPressOnlyDisconnects | src/actions/authorize.ts:15-20 | A press while authorized never starts authorization; it disconnects through `disconnect`. |

## Left out

- The HTTP listener, the browser launch, `fetch`, filesystem reads and writes, and `JSON.parse` are not modelled. They are replaced by the replies, probes and parsed records they would produce.
- Timers are not modelled. `setTimeout` and `setInterval` become an explicit `now` and a stored delay, and the 2–2.5 s title-clearing timeouts of the key actions are not modelled.
- Stream Deck SDK calls are not modelled. Of these, only the title and the ok/alert flash are kept. The key image state (`setState`) is implied by the flag it mirrors.
- Concurrency is modelled as sequential steps over given outcomes:
  - two overlapping `getUserPlaylists` calls are a `Begin` before the other's `Finish`;
  - the `Promise.allSettled` of like+add is a pair of settled legs;
  - a second `authorize()` started while one listens is not modelled, since the listener port would clash.
- The random `state`, Base64, URL encoding and `htmlPage` markup are not modelled.
- `parseInt` on a non-numeric `Retry-After` gives NaN, which neither fails fast nor waits. The hint is an integer here.
- `Text.Trunc` counts code points, where JavaScript counts UTF-16 code units. Names with characters outside the Basic Multilingual Plane are cut differently.
- `Credentials.SetTokens` does not model a failing `saveTokens` write, which the source swallows. The token file then keeps its old content.
- `AuthFlow.Step` answers the awaited exchanges oldest first. Answers that arrive in another order are not modelled.
- `Credentials.Disconnect`, `Credentials.DisconnectSurvivesRestart`: a failing `unlinkSync` is swallowed by the source, and the model does not cover it. It always removes the token file, so the case where the file survives and a restart loads the old record again is not modelled.
- `EnvFile.GetEnv`, `EnvFile.ParseEnv`: the variables are a map. The source uses a plain JavaScript object, so a `__proto__` key in the file does not become a variable, and names inherited from `Object.prototype` (such as `toString`) are found even when the file does not define them. Neither is modelled.
- `Credentials.Message`: a failed code exchange reads `Token exchange failed` without the response text the source appends, and that includes an OK exchange reply whose body does not parse, where the source rejects with the JSON parser's own message. A refresh reply whose body does not parse reads `Unexpected token response`, where the source also rejects with the parser's message.
- `Credentials.RenewalDelay`, `Credentials.LoadTokens`: the delay is the one `scheduleRefresh` computes. Node's `setTimeout` treats a delay above 2147483647 ms (about 24.8 days) as 1 ms, so in the program a grant of more than about 2147603 s, or a loaded record expiring more than about 24.8 days ahead, refreshes at once. That clamp is not modelled, and the 30 s lower bound holds only below it.
- `ApiClient.ApiFetch` does not model the time spent in waits. It records each wait in seconds instead.
- `isRateLimited`, `isTrackInPlaylist`, `removeItemsFromPlaylist` and `unlikeAndRemoveFromPlaylist` are not defined in `spotify-api.ts`. They are opaque inputs, and no rate-limit deadline state is modelled.
- `areItemsSaved` is a single boolean answer (or a failure). The array it returns and the `savedArr[0]` read are not modelled.
- `playlistName`, the settings read by the poll, and every `logger` call are not modelled.
- `src/actions/playlist-pi-handler.ts` is not part of this model. It is a stateless message relay.
- `src/plugin.ts` is not part of this model. It is the registration bootstrap.
- `rollup.config.mjs` is not part of this model. It is build configuration.

=== FILE: action_kit.dfy ===
/** What the key actions share: the answer of a key press, the API calls a
    handler makes, and the current track as the handlers read it. */
module ActionKit {
  import opened Wrappers
  import ApiClient

  /** Titles show at most this many characters of a track name. */
  const TitleWidth: nat := 12

  /** The flash the key shows after a press. */
  datatype Indicator = ShowOk | ShowAlert

  /** The API calls a handler can make. */
  datatype Call =
    | ReadCurrentTrack
    | CheckSaved
    | CheckInPlaylist
    | LikeAndAdd
    | UnlikeAndRemove
    | AddToPlaylist
    | RemoveFromPlaylist
    | SaveToLibrary
    | RemoveFromLibrary

  /** The effect of one key press: the key's new state, its title, its
      flash, and the API calls made, in order. */
  datatype Press<S> = Press(state: S, title: string, indicator: Indicator, calls: seq<Call>)

  /** `cur?.item`: the track being played, None when nothing (or no track)
      is playing; a failed read stays a failure. */
  function PlayingItem(cur: Result<Option<ApiClient.Playing>, ApiClient.ApiError>): (r: Result<Option<ApiClient.Track>, ApiClient.ApiError>)
    ensures cur.Err? <==> r.Err?
    ensures r.Ok? && r.value.Some? <==> cur.Ok? && cur.value.Some? && cur.value.value.item.Some?
    ensures r.Ok? && r.value.Some? ==> r.value.value == cur.value.value.item.value
  {
    match cur
    case Err(e) => Err(e)
    case Ok(None) => Ok(None)
    case Ok(Some(p)) => Ok(p.item)
  }
}

=== FILE: add_to_playlist.dfy ===
/** The "add to playlist" key of actions/add-to-playlist.ts: `inPlaylist`
    says whether the current track is in the chosen playlist; a press adds
    it or, when it is in, removes it. */
module AddToPlaylistKey {
  import opened Wrappers
  import opened ActionKit
  import opened Http
  import ApiClient
  import Text

  datatype KeyState = KeyState(lastTrackUri: Option<string>, inPlaylist: bool)

  const Initial: KeyState := KeyState(None, false)

  /** `onDidReceiveSettings`: a new playlist forgets the last track seen
      and returns the key to its "add" state. */
  function SettingsChanged(s: KeyState): (s': KeyState)
    ensures s'.lastTrackUri.None? && !s'.inPlaylist
  {
    Initial
  }

  /** `onKeyDown`. The inputs are what each call would answer: the current
      track, the removal, the membership check, and the reply to the
      addition request. Each assignment to `inPlaylist` follows its
      awaited call, so a call that fails leaves the flag as it was. An
      empty `playlistId` stands for a missing one. */
  function KeyDown(s: KeyState, authorized: bool, playlistId: string,
                   current: Result<Option<ApiClient.Playing>, ApiClient.ApiError>,
                   remove: ApiClient.Settled, alreadyIn: Result<bool, string>,
                   add: Result<Response<()>, ApiClient.FetchError>): (p: Press<KeyState>)
    ensures p.state.lastTrackUri == s.lastTrackUri
    ensures !authorized || playlistId == "" ==> p.state == s && p.calls == [] && p.indicator == ShowAlert
    ensures p.state.inPlaylist != s.inPlaylist ==> authorized && playlistId != "" && PlayingItem(current).Ok? && PlayingItem(current).value.Some?
    ensures RemoveFromPlaylist in p.calls ==> s.inPlaylist
    ensures AddToPlaylist in p.calls ==> !s.inPlaylist && alreadyIn == Ok(false)
    ensures s.inPlaylist && !p.state.inPlaylist ==> remove.Fulfilled?
    ensures !s.inPlaylist && p.state.inPlaylist ==> alreadyIn == Ok(true) || (add.Ok? && IsOk(add.value.status))
  {
    if !authorized then Press(s, "Auth\nFirst!", ShowAlert, [])
    else if playlistId == "" then Press(s, "Set\nPlaylist", ShowAlert, [])
    else
      match PlayingItem(current)
      case Err(_) => Press(s, "Error", ShowAlert, [ReadCurrentTrack])
      case Ok(None) => Press(s, "No\nTrack", ShowAlert, [ReadCurrentTrack])
      case Ok(Some(track)) =>
        var name := Text.Trunc(track.name, TitleWidth);
        if s.inPlaylist then
          var calls := [ReadCurrentTrack, RemoveFromPlaylist];
          if remove.Fulfilled? then Press(s.(inPlaylist := false), "Removed\n" + name, ShowOk, calls)
          else Press(s, "Error", ShowAlert, calls)
        else
          var checked := [ReadCurrentTrack, CheckInPlaylist];
          match alreadyIn
          case Err(_) => Press(s, "Error", ShowAlert, checked)
          case Ok(true) => Press(s.(inPlaylist := true), "Already\nOn List", ShowAlert, checked)
          case Ok(false) =>
            var calls := checked + [AddToPlaylist];
            if ApiClient.Mutation("Add to playlist", add).Fulfilled? then Press(s.(inPlaylist := true), "Added!\n" + name, ShowOk, calls)
            else Press(s, "Error", ShowAlert, calls)
  }

  /** A track already in the playlist flips the key to "in" without
      adding it again. */
  lemma AlreadyInSkipsAdd(s: KeyState, playlistId: string, current: Result<Option<ApiClient.Playing>, ApiClient.ApiError>,
                          remove: ApiClient.Settled, add: Result<Response<()>, ApiClient.FetchError>)
    requires !s.inPlaylist && playlistId != ""
    requires PlayingItem(current).Ok? && PlayingItem(current).value.Some?
    ensures var p := KeyDown(s, true, playlistId, current, remove, Ok(true), add);
            p.state.inPlaylist && AddToPlaylist !in p.calls
  {
  }

  /** With a track playing, a press toggles `inPlaylist` exactly when the
      call it makes succeeds. */
  lemma PressTogglesIffCallSucceeds(s: KeyState, playlistId: string, current: Result<Option<ApiClient.Playing>, ApiClient.ApiError>,
                                    remove: ApiClient.Settled, add: Result<Response<()>, ApiClient.FetchError>)
    requires playlistId != ""
    requires PlayingItem(current).Ok? && PlayingItem(current).value.Some?
    ensures var p := KeyDown(s, true, playlistId, current, remove, Ok(false), add);
            && (s.inPlaylist ==> (p.state.inPlaylist <==> remove.Rejected?))
            && (!s.inPlaylist ==> (p.state.inPlaylist <==> add.Ok? && IsOk(add.value.status)))
  {
  }

  /** The poll (every 60 s): when the current track differs from the last
      one seen, remember it and, unless rate-limited by then, set
      `inPlaylist` from the membership check. */
  function Poll(s: KeyState, authorized: bool, rateLimited: bool, playlistId: string,
                current: Result<Option<ApiClient.Playing>, ApiClient.ApiError>,
                rateLimitedAfterRead: bool, inPlaylist: Result<bool, string>): (s': KeyState)
    ensures s'.inPlaylist != s.inPlaylist ==>
              && PlayingItem(current).Ok? && PlayingItem(current).value.Some?
              && s.lastTrackUri != Some(PlayingItem(current).value.value.uri)
              && !rateLimitedAfterRead && inPlaylist.Ok? && s'.inPlaylist == inPlaylist.value
    ensures s'.lastTrackUri != s.lastTrackUri ==>
              && authorized && !rateLimited && playlistId != ""
              && PlayingItem(current).Ok? && PlayingItem(current).value.Some?
              && s'.lastTrackUri == Some(PlayingItem(current).value.value.uri)
    ensures (&& authorized && !rateLimited && playlistId != ""
             && PlayingItem(current).Ok? && PlayingItem(current).value.Some?
             && s.lastTrackUri != Some(PlayingItem(current).value.value.uri)) ==>
              && s'.lastTrackUri == Some(PlayingItem(current).value.value.uri)
              && (!rateLimitedAfterRead && inPlaylist.Ok? ==> s'.inPlaylist == inPlaylist.value)
  {
    if !authorized || rateLimited || playlistId == "" then s
    else
      match PlayingItem(current)
      case Err(_) => s
      case Ok(None) => s
      case Ok(Some(track)) =>
        if Some(track.uri) == s.lastTrackUri then s
        else
          var seen := s.(lastTrackUri := Some(track.uri));
          if rateLimitedAfterRead then seen
          else
            match inPlaylist
            case Err(_) => seen
            case Ok(b) => seen.(inPlaylist := b)
  }

  /** A poll that sees the same track again changes nothing. */
  lemma SecondPollOnSameTrackIsInert(s: KeyState, playlistId: string,
                                     current: Result<Option<ApiClient.Playing>, ApiClient.ApiError>,
                                     check: Result<bool, string>, check2: Result<bool, string>)
    ensures var s1 := Poll(s, true, false, playlistId, current, false, check);
            Poll(s1, true, false, playlistId, current, false, check2) == s1
  {
  }
}

=== FILE: api_client.dfy ===
/** The request layer of spotify-api.ts: `apiFetch` with its bounded 429
    retry loop (status 429 of section 4 of RFC 6585, `Retry-After` of
    section 10.2.3 of RFC 9110), the `getCurrentTrack` classification, and
    how a library or playlist mutation settles. */
module ApiClient {
  import opened Wrappers
  import opened Http
  import Credentials
  import Text

  const MaxAttempts: nat := 3
  /** The hint assumed when a 429 carries no `Retry-After`. */
  const DefaultRetryAfterSecs: int := 10
  /** A longer hint fails fast instead of waiting. */
  const MaxWaitSecs: int := 30
  /** The shortest wait before a retry. */
  const MinWaitSecs: int := 5

  datatype FetchError = TokenUnavailable(cause: Credentials.AuthError) | NetworkFailure

  /** What one call of `apiFetch` did: its result, how many requests it
      sent, and the waits (in seconds) it slept between them. */
  datatype Fetch<B> = Fetch(result: Result<Response<B>, FetchError>, requests: nat, waits: seq<int>)

  /** The reply to the attempt with index `i`, from a script of replies;
      None is a `fetch` that rejected, and so is every attempt the script
      does not reach. */
  function ReplyAt<B>(replies: seq<Option<Response<B>>>, i: nat): Option<Response<B>> {
    if i < |replies| then replies[i] else None
  }

  /** The Retry-After hint of a 429, with its default. */
  function RetryHint<B>(resp: Response<B>): (secs: int)
    ensures resp.retryAfter.Some? ==> secs == resp.retryAfter.value
    ensures resp.retryAfter.None? ==> secs == DefaultRetryAfterSecs
  {
    resp.retryAfter.GetOr(DefaultRetryAfterSecs)
  }

  /** The wait before a retry: the hint, stretched to at least 5 s. */
  function WaitFor(hint: int): (secs: int)
    ensures secs >= MinWaitSecs && secs >= hint
    ensures secs == hint || secs == MinWaitSecs
  {
    if hint > MinWaitSecs then hint else MinWaitSecs
  }

  /** A reply the loop answers by waiting and trying again. */
  predicate Retryable<B>(reply: Option<Response<B>>) {
    reply.Some? && reply.value.status == 429 && RetryHint(reply.value) <= MaxWaitSecs
  }

  /** The response returned when every attempt met a short 429. */
  function RateLimited<B>(): Response<B> {
    Response(429, None, None)
  }

  /** Each wait in `waits` answers a short 429, the first one the reply to
      attempt `from`, the next one the reply to the attempt after, and so
      on; it lasts the hint stretched to at least 5 s. */
  predicate WaitsFollowHints<B>(replies: seq<Option<Response<B>>>, from: nat, waits: seq<int>)
    decreases |waits|
  {
    |waits| == 0 ||
      (&& Retryable(ReplyAt(replies, from))
       && waits[0] == WaitFor(RetryHint(ReplyAt(replies, from).value))
       && WaitsFollowHints(replies, from + 1, waits[1..]))
  }

  /** The loop body from attempt `attempt` on. */
  function Attempts<B>(replies: seq<Option<Response<B>>>, attempt: nat): (f: Fetch<B>)
    requires attempt <= MaxAttempts
    ensures f.requests <= MaxAttempts - attempt
    ensures attempt < MaxAttempts ==> f.requests >= 1
    ensures |f.waits| <= MaxAttempts - attempt
    ensures forall i | 0 <= i < |f.waits| :: MinWaitSecs <= f.waits[i] <= MaxWaitSecs
    ensures WaitsFollowHints(replies, attempt, f.waits)
    decreases MaxAttempts - attempt
  {
    if attempt == MaxAttempts then Fetch(Ok(RateLimited()), 0, [])
    else
      match ReplyAt(replies, attempt)
      case None => Fetch(Err(NetworkFailure), 1, [])
      case Some(resp) =>
        if resp.status == 429 && RetryHint(resp) <= MaxWaitSecs then
          var wait := WaitFor(RetryHint(resp));
          var rest := Attempts(replies, attempt + 1);
          var waits := [wait] + rest.waits;
          assert waits[1..] == rest.waits;
          Fetch(rest.result, rest.requests + 1, waits)
        else
          Fetch(Ok(resp), 1, [])
  }

  /** The `i`-th wait is the stretched hint of the `from + i`-th reply,
      which was a short 429. */
  lemma {:induction false} WaitAt<B>(replies: seq<Option<Response<B>>>, from: nat, waits: seq<int>, i: nat)
    requires WaitsFollowHints(replies, from, waits) && i < |waits|
    ensures Retryable(ReplyAt(replies, from + i))
    ensures waits[i] == WaitFor(RetryHint(ReplyAt(replies, from + i).value))
    decreases i
  {
    if i > 0 {
      WaitAt(replies, from + 1, waits[1..], i - 1);
      assert from + 1 + (i - 1) == from + i;
    }
  }

  /** Every wait of the loop is the stretched hint of the short 429 it
      answers: the `i`-th wait follows the reply to attempt `attempt + i`. */
  lemma WaitsAreStretchedHints<B>(replies: seq<Option<Response<B>>>, attempt: nat)
    requires attempt <= MaxAttempts
    ensures var f := Attempts(replies, attempt);
            forall i | 0 <= i < |f.waits| ::
              && Retryable(ReplyAt(replies, attempt + i))
              && f.waits[i] == WaitFor(RetryHint(ReplyAt(replies, attempt + i).value))
  {
    var f := Attempts(replies, attempt);
    forall i | 0 <= i < |f.waits|
      ensures Retryable(ReplyAt(replies, attempt + i))
      ensures f.waits[i] == WaitFor(RetryHint(ReplyAt(replies, attempt + i).value))
    {
      WaitAt(replies, attempt, f.waits, i);
    }
  }

  /** `apiFetch`: the bearer token is obtained once, before the loop; if
      that fails nothing is sent. Otherwise between one and three requests
      go out, and every wait lies between 5 and 30 seconds. */
  function ApiFetch<B>(token: Result<string, Credentials.AuthError>, replies: seq<Option<Response<B>>>): (f: Fetch<B>)
    ensures token.Err? ==> f == Fetch(Err(TokenUnavailable(token.error)), 0, [])
    ensures token.Ok? ==> 1 <= f.requests <= MaxAttempts
    ensures |f.waits| <= MaxAttempts
    ensures forall i | 0 <= i < |f.waits| :: MinWaitSecs <= f.waits[i] <= MaxWaitSecs
    ensures forall i | 0 <= i < |f.waits| ::
              && Retryable(ReplyAt(replies, i))
              && f.waits[i] == WaitFor(RetryHint(ReplyAt(replies, i).value))
  {
    match token
    case Err(e) => Fetch(Err(TokenUnavailable(e)), 0, [])
    case Ok(_) =>
      WaitsAreStretchedHints(replies, 0);
      Attempts(replies, 0)
  }

  /** The loop stops at the first reply that is not a short 429: it sends
      exactly one request per attempt up to and including that one, waits
      once before each retry, and returns that reply as it came (a 429
      with a hint over 30 s included) or fails if the request rejected. */
  lemma {:induction false} StopsAtFirstDecisiveReply<B>(replies: seq<Option<Response<B>>>, attempt: nat, k: nat)
    requires attempt <= k < MaxAttempts
    requires forall j | attempt <= j < k :: Retryable(ReplyAt(replies, j))
    requires !Retryable(ReplyAt(replies, k))
    ensures var f := Attempts(replies, attempt);
            && f.requests == k - attempt + 1
            && |f.waits| == k - attempt
            && f.result == (if ReplyAt(replies, k).None? then Err(NetworkFailure) else Ok(ReplyAt(replies, k).value))
            && forall j | 0 <= j < |f.waits| :: f.waits[j] == WaitFor(RetryHint(ReplyAt(replies, attempt + j).value))
    decreases k - attempt
  {
    WaitsAreStretchedHints(replies, attempt);
    if attempt < k {
      assert Retryable(ReplyAt(replies, attempt));
      StopsAtFirstDecisiveReply(replies, attempt + 1, k);
    }
  }

  /** When every attempt meets a 429 with a hint of 30 s or less, three
      requests go out, three waits of at least 5 s are slept, and the
      result is a synthetic 429. */
  lemma {:induction false} ExhaustedRetries<B>(replies: seq<Option<Response<B>>>, attempt: nat)
    requires attempt <= MaxAttempts
    requires forall j | attempt <= j < MaxAttempts :: Retryable(ReplyAt(replies, j))
    ensures var f := Attempts(replies, attempt);
            && f.requests == MaxAttempts - attempt
            && |f.waits| == MaxAttempts - attempt
            && f.result == Ok(RateLimited())
            && forall j | 0 <= j < |f.waits| :: f.waits[j] == WaitFor(RetryHint(ReplyAt(replies, attempt + j).value))
    decreases MaxAttempts - attempt
  {
    WaitsAreStretchedHints(replies, attempt);
    if attempt < MaxAttempts {
      assert Retryable(ReplyAt(replies, attempt));
      ExhaustedRetries(replies, attempt + 1);
    }
  }

  /** A 429 whose hint exceeds 30 s (or a 429 without a hint when the
      default exceeded it) is returned at once: one request, no wait. */
  lemma LongRetryAfterFailsFast<B>(token: string, replies: seq<Option<Response<B>>>)
    requires |replies| >= 1 && replies[0].Some? && replies[0].value.status == 429
    requires RetryHint(replies[0].value) > MaxWaitSecs
    ensures ApiFetch(Ok(token), replies) == Fetch(Ok(replies[0].value), 1, [])
  {
  }

  /** Any non-429 reply, successful or not, is returned on the attempt it
      arrives, without a retry. */
  lemma Non429ReturnedAsIs<B>(token: string, replies: seq<Option<Response<B>>>)
    requires |replies| >= 1 && replies[0].Some? && replies[0].value.status != 429
    ensures ApiFetch(Ok(token), replies) == Fetch(Ok(replies[0].value), 1, [])
  {
  }

  /** A 429 with a hint of 30 s or less is answered by waiting the hint,
      stretched to at least 5 s, and trying again. */
  lemma ShortHintWaitsAtLeastFive<B>(token: string, replies: seq<Option<Response<B>>>)
    requires |replies| >= 1 && replies[0].Some? && replies[0].value.status == 429
    requires RetryHint(replies[0].value) <= MaxWaitSecs
    ensures |ApiFetch(Ok(token), replies).waits| >= 1
    ensures ApiFetch(Ok(token), replies).waits[0] == WaitFor(RetryHint(replies[0].value))
    ensures RetryHint(replies[0].value) < MinWaitSecs ==> ApiFetch(Ok(token), replies).waits[0] == MinWaitSecs
    ensures ApiFetch(Ok(token), replies).requests >= 2
  {
  }

  /** The body of `/me/player/currently-playing` the model looks at. */
  datatype Track = Track(id: string, name: string, uri: string)
  datatype Playing = Playing(isPlaying: bool, item: Option<Track>, playingType: string)

  datatype ApiError = RequestFailed(cause: FetchError) | Status(what: string, status: int) | MalformedBody

  /** `getCurrentTrack`: 204 and 202 mean nothing is playing; any other
      non-OK status fails; something playing that is not a track (an
      episode, an ad) also reads as nothing playing. */
  function CurrentTrack(f: Result<Response<Playing>, FetchError>): (r: Result<Option<Playing>, ApiError>)
    ensures f.Err? ==> r == Err(RequestFailed(f.error))
    ensures f.Ok? && f.value.status in {202, 204} ==> r == Ok(None)
    ensures f.Ok? && !(f.value.status in {202, 204}) && !IsOk(f.value.status) ==>
              r == Err(Status("Get current track", f.value.status))
    ensures f.Ok? && IsOk(f.value.status) && !(f.value.status in {202, 204}) && f.value.body.None? ==>
              r == Err(MalformedBody)
    ensures (&& f.Ok? && IsOk(f.value.status) && !(f.value.status in {202, 204}) && f.value.body.Some?
             && f.value.body.value.playingType != "track") ==> r == Ok(None)
    ensures r.Ok? && r.value.Some? <==>
              && f.Ok? && IsOk(f.value.status) && !(f.value.status in {202, 204})
              && f.value.body.Some? && f.value.body.value.playingType == "track"
    ensures r.Ok? && r.value.Some? ==> r.value.value == f.value.body.value
  {
    match f
    case Err(e) => Err(RequestFailed(e))
    case Ok(resp) =>
      if resp.status == 204 || resp.status == 202 then Ok(None)
      else if !IsOk(resp.status) then Err(Status("Get current track", resp.status))
      else
        match resp.body
        case None => Err(MalformedBody)
        case Some(data) =>
          if data.playingType != "track" then Ok(None) else Ok(Some(data))
  }

  /** How a promise settled: fulfilled, or rejected with an error message. */
  datatype Settled = Fulfilled | Rejected(message: string)

  /** The message of a failure that escapes `apiFetch`. */
  function FetchErrorMessage(e: FetchError): string {
    match e
    case TokenUnavailable(cause) => Credentials.Message(cause)
    case NetworkFailure => "fetch failed"
  }

  /** `saveToLibrary`, `removeFromLibrary` and `addItemsToPlaylist`: the
      call fulfills exactly when the response is OK; otherwise it rejects
      with "`what`: `status`", or with the message of the failure that
      escaped `apiFetch`. */
  function Mutation(what: string, f: Result<Response<()>, FetchError>): (s: Settled)
    ensures s.Fulfilled? <==> f.Ok? && IsOk(f.value.status)
    ensures f.Ok? && s.Rejected? ==> s.message == what + ": " + Text.SignedDecimal(f.value.status)
  {
    match f
    case Err(e) => Rejected(FetchErrorMessage(e))
    case Ok(resp) =>
      if IsOk(resp.status) then Fulfilled
      else Rejected(what + ": " + Text.SignedDecimal(resp.status))
  }
}

=== FILE: auth_flow.dfy ===
/** `authorize()` of spotify-auth.ts: the one-shot loopback listener that
    receives the authorization-code redirect (section 4.1 of RFC 6749),
    checks the `state` value against cross-site request forgery (section
    10.12 of RFC 6749), exchanges the code, and is torn down on every
    terminal branch. Requests and the 300 s timeout arrive as events. */
module AuthFlow {
  import opened Wrappers
  import opened Http
  import Credentials

  /** The listener gives up after this long without a usable callback. */
  const TimeoutMs: int := 300_000

  /** One request to the listener: its path and the `code`, `state` and
      `error` query parameters (None when absent). */
  datatype CallbackRequest = CallbackRequest(path: string, code: Option<string>, state: Option<string>, error: Option<string>)

  /** How the handler treats a request, before any exchange. */
  datatype Verdict =
    | WrongPath          // 404, listener stays open
    | Denied             // the user refused consent: 200 page, reject
    | Invalid            // no code, or a forged / stale state: 400, reject
    | Exchange(code: string)

  /** JavaScript truthiness of an optional string: present and non-empty. */
  predicate Truthy(p: Option<string>) {
    p.Some? && p.value != ""
  }

  /** The callback classification of the request handler. */
  function Classify(req: CallbackRequest, expectedState: string): (v: Verdict)
    ensures v.WrongPath? <==> req.path != "/"
    ensures v.Denied? <==> req.path == "/" && Truthy(req.error)
    ensures v.Exchange? <==> req.path == "/" && !Truthy(req.error) && Truthy(req.code) && req.state == Some(expectedState)
    ensures v.Exchange? ==> v.code == req.code.value
  {
    if req.path != "/" then WrongPath
    else if Truthy(req.error) then Denied
    else if !Truthy(req.code) || req.state != Some(expectedState) then Invalid
    else Exchange(req.code.value)
  }

  /** A code is only ever exchanged when the request echoes the state this
      attempt generated; any other state is rejected as invalid. */
  lemma ForgedStateRejected(req: CallbackRequest, expectedState: string)
    requires req.path == "/" && !Truthy(req.error) && req.state != Some(expectedState)
    ensures Classify(req, expectedState) == Invalid
  {
  }

  datatype FlowError = AuthDenied | InvalidCallback | ExchangeFailed | TimedOut

  /** The settlement of the promise `authorize()` returns. */
  datatype Settlement = Pending | Connected | Rejected(reason: FlowError)

  /** Something that happens to a running flow: a request arrives, the
      token endpoint answers the oldest code exchange still awaited, or the
      timeout fires. The handler awaits the exchange, so other requests and
      the timeout can come between a callback and its answer. */
  datatype Event =
    | Request(req: CallbackRequest)
    | ExchangeAnswered(reply: Credentials.TokenReply, now: int)
    | Timeout

  /** A running flow: whether the listener is open, the settlement, the
      HTTP statuses answered so far, how many times the "authorized"
      observers were notified, the codes whose exchange is still awaited
      (oldest first), and the credential manager. */
  datatype Flow = Flow(listening: bool, settlement: Settlement, statuses: seq<int>, notified: nat,
                       exchanging: seq<string>, manager: Credentials.Manager)

  /** A flow as `authorize()` starts it. */
  function Start(m: Credentials.Manager): (f: Flow)
    ensures Consistent(f) && f.listening && f.settlement.Pending? && f.exchanging == [] && f.manager == m
  {
    Flow(true, Pending, [], 0, [], m)
  }

  /** The listener is open exactly while the flow is unsettled, nobody was
      notified before the flow settled, and a connected flow notified. */
  predicate Consistent(f: Flow) {
    && (f.listening <==> f.settlement.Pending?)
    && (f.settlement.Pending? ==> f.notified == 0)
    && (f.settlement.Connected? ==> f.notified >= 1)
  }

  /** `server.close()` and `resolve`/`reject`: the listener closes, and the
      promise takes `s` unless it had already settled. */
  function Close(f: Flow, s: Settlement): (f': Flow)
    ensures !f'.listening
    ensures f'.settlement == if f.settlement.Pending? then s else f.settlement
  {
    f.(listening := false, settlement := if f.settlement.Pending? then s else f.settlement)
  }

  /** One event. A closed listener takes no more requests, but an exchange
      already awaited still completes: it answers its request, installs
      the credential on success and runs the observers, whatever the
      promise has settled to meanwhile. */
  function Step(f: Flow, expectedState: string, e: Event): (f': Flow)
    requires Consistent(f)
    ensures Consistent(f')
    ensures !f.listening && f.exchanging == [] ==> f' == f
    ensures !f.settlement.Pending? ==> f'.settlement == f.settlement
    ensures e.Timeout? ==> && !f'.listening && f'.statuses == f.statuses && f'.exchanging == f.exchanging
                           && f'.manager == f.manager && f'.notified == f.notified
                           && (f.listening ==> f'.settlement == Rejected(TimedOut))
    ensures e.Request? ==> f'.manager == f.manager && f'.notified == f.notified
    ensures e.Request? && f'.exchanging != f.exchanging ==>
              && f.listening && Classify(e.req, expectedState).Exchange?
              && f'.exchanging == f.exchanging + [Classify(e.req, expectedState).code]
    ensures f'.manager != f.manager ==> e.ExchangeAnswered? && f.exchanging != [] && f'.notified == f.notified + 1
    ensures |f'.statuses| <= |f.statuses| + 1
  {
    match e
    case Timeout => if f.listening then Close(f, Rejected(TimedOut)) else f
    case Request(req) =>
      if !f.listening then f
      else (
        match Classify(req, expectedState)
        case WrongPath => f.(statuses := f.statuses + [404])
        case Denied => Close(f, Rejected(AuthDenied)).(statuses := f.statuses + [200])
        case Invalid => Close(f, Rejected(InvalidCallback)).(statuses := f.statuses + [400])
        case Exchange(code) => f.(exchanging := f.exchanging + [code]))
    case ExchangeAnswered(reply, now) =>
      if f.exchanging == [] then f
      else
        var g := f.(exchanging := f.exchanging[1..]);
        var (m', outcome) := Credentials.ExchangeCode(f.manager, reply, now);
        if outcome.Pass? then
          Close(g, Connected).(statuses := f.statuses + [200], notified := f.notified + 1, manager := m')
        else
          Close(g, Rejected(ExchangeFailed)).(statuses := f.statuses + [500])
  }

  /** A sequence of events, in order. */
  function Run(f: Flow, expectedState: string, events: seq<Event>): (f': Flow)
    requires Consistent(f)
    ensures Consistent(f')
    ensures !f.listening && f.exchanging == [] ==> f' == f
    ensures !f.settlement.Pending? ==> f'.settlement == f.settlement
    decreases |events|
  {
    if events == [] then f
    else Run(Step(f, expectedState, events[0]), expectedState, events[1..])
  }

  /** The first settlement is final: whatever happens later, the promise
      keeps the value it settled to. */
  lemma {:induction false} SettlementIsFinal(f: Flow, expectedState: string, before: seq<Event>, after: seq<Event>)
    requires Consistent(f)
    requires !Run(f, expectedState, before).settlement.Pending?
    ensures Run(f, expectedState, before + after).settlement == Run(f, expectedState, before).settlement
    decreases |before|
  {
    if before != [] {
      assert (before + after)[1..] == before[1..] + after;
      SettlementIsFinal(Step(f, expectedState, before[0]), expectedState, before[1..], after);
    } else {
      assert before + after == after;
    }
  }

  /** Once the listener is closed and no exchange is awaited, nothing
      changes the flow any more. */
  lemma {:induction false} SettledIsFinal(f: Flow, expectedState: string, before: seq<Event>, after: seq<Event>)
    requires Consistent(f)
    requires !Run(f, expectedState, before).listening && Run(f, expectedState, before).exchanging == []
    ensures Run(f, expectedState, before + after) == Run(f, expectedState, before)
    decreases |before|
  {
    if before != [] {
      assert (before + after)[1..] == before[1..] + after;
      SettledIsFinal(Step(f, expectedState, before[0]), expectedState, before[1..], after);
    } else {
      assert before + after == after;
    }
  }

  /** Requests to paths other than `/` are answered 404 and leave the
      listener open and the flow unsettled. */
  lemma {:induction false} WrongPathsKeepListening(f: Flow, expectedState: string, events: seq<Event>)
    requires Consistent(f) && f.listening
    requires forall i | 0 <= i < |events| :: events[i].Request? && events[i].req.path != "/"
    ensures var f' := Run(f, expectedState, events);
            && f'.listening && f'.settlement == Pending && f'.manager == f.manager
            && f'.exchanging == f.exchanging
            && f'.statuses == f.statuses + seq(|events|, i => 404)
    decreases |events|
  {
    if events != [] {
      var g := Step(f, expectedState, events[0]);
      assert g.statuses == f.statuses + [404];
      WrongPathsKeepListening(g, expectedState, events[1..]);
      assert f.statuses + [404] + seq(|events| - 1, i => 404) == f.statuses + seq(|events|, i => 404);
    }
  }

  /** A callback without an error but with no code, or with a state that
      does not match, rejects the flow with InvalidCallback, answers 400,
      tears the listener down and leaves the credential untouched. */
  lemma ForgedCallbackTearsDown(f: Flow, expectedState: string, req: CallbackRequest)
    requires Consistent(f) && f.listening
    requires req.path == "/" && !Truthy(req.error)
    requires !Truthy(req.code) || req.state != Some(expectedState)
    ensures var f' := Step(f, expectedState, Request(req));
            && !f'.listening && f'.settlement == Rejected(InvalidCallback)
            && f'.statuses == f.statuses + [400] && f'.manager == f.manager
            && f'.exchanging == f.exchanging
  {
  }

  /** A callback carrying an error (the user refused consent) answers 200,
      tears the listener down and rejects the flow as denied, whatever code
      and state it carries; the credential is untouched. */
  lemma DeniedCallbackTearsDown(f: Flow, expectedState: string, req: CallbackRequest)
    requires Consistent(f) && f.listening
    requires req.path == "/" && Truthy(req.error)
    ensures var f' := Step(f, expectedState, Request(req));
            && !f'.listening && f'.settlement == Rejected(AuthDenied)
            && f'.statuses == f.statuses + [200] && f'.manager == f.manager
            && f'.exchanging == f.exchanging && f'.notified == 0
  {
  }

  /** A callback with the right state starts an exchange of its code and
      answers nothing yet; the flow stays open and unsettled. */
  lemma ValidCallbackAwaitsExchange(f: Flow, expectedState: string, req: CallbackRequest, code: string)
    requires Consistent(f) && f.listening
    requires req.path == "/" && !Truthy(req.error) && req.code == Some(code) && code != ""
    requires req.state == Some(expectedState)
    ensures var f' := Step(f, expectedState, Request(req));
            && f'.listening && f'.settlement == Pending && f'.statuses == f.statuses
            && f'.exchanging == f.exchanging + [code] && f'.manager == f.manager
  {
  }

  /** The flow connects only when an awaited exchange succeeds while it is
      unsettled; then the observers have run once and the manager holds the
      new credential. */
  lemma ConnectedMeansExchanged(f: Flow, expectedState: string, e: Event)
    requires Consistent(f) && f.settlement.Pending?
    requires Step(f, expectedState, e).settlement == Connected
    ensures e.ExchangeAnswered? && f.exchanging != []
    ensures e.reply.Reply? && IsOk(e.reply.status) && e.reply.body.Some?
    ensures Step(f, expectedState, e).notified == 1
    ensures Step(f, expectedState, e).statuses == f.statuses + [200]
    ensures Step(f, expectedState, e).manager == Credentials.SetTokens(f.manager, e.reply.body.value, e.now)
  {
  }

  /** An OK token response with a body to an awaited exchange of an
      unsettled flow connects it: the page answers 200, the listener
      closes, the observers run and the manager holds the new credential. */
  lemma OkExchangeConnects(f: Flow, expectedState: string, reply: Credentials.TokenReply, now: int)
    requires Consistent(f) && f.settlement.Pending? && f.exchanging != []
    requires reply.Reply? && IsOk(reply.status) && reply.body.Some?
    ensures var f' := Step(f, expectedState, ExchangeAnswered(reply, now));
            && f'.settlement == Connected && !f'.listening
            && f'.statuses == f.statuses + [200]
            && f'.notified == f.notified + 1
            && f'.manager == Credentials.SetTokens(f.manager, reply.body.value, now)
            && f'.exchanging == f.exchanging[1..]
  {
  }

  /** A failed exchange (a rejected request, a non-OK status or an
      unparsable body) of an unsettled flow answers 500, closes the
      listener and rejects the flow; the credential is untouched and
      nobody is notified. */
  lemma FailedExchangeTearsDown(f: Flow, expectedState: string, reply: Credentials.TokenReply, now: int)
    requires Consistent(f) && f.settlement.Pending? && f.exchanging != []
    requires !(reply.Reply? && IsOk(reply.status) && reply.body.Some?)
    ensures var f' := Step(f, expectedState, ExchangeAnswered(reply, now));
            && f'.settlement == Rejected(ExchangeFailed) && !f'.listening
            && f'.statuses == f.statuses + [500]
            && f'.notified == f.notified && f'.manager == f.manager
            && f'.exchanging == f.exchanging[1..]
  {
  }

  /** The timeout can fire while a code exchange is awaited. The promise
      then rejects with "timed out", yet the exchange still completes: on
      success the credential is installed, the observers run and the page
      answers 200, while the flow stays rejected. */
  lemma TimeoutDuringExchange(f: Flow, expectedState: string, reply: Credentials.TokenReply, now: int)
    requires Consistent(f) && f.listening && f.exchanging != []
    requires reply.Reply? && IsOk(reply.status) && reply.body.Some?
    ensures var f' := Run(f, expectedState, [Timeout, ExchangeAnswered(reply, now)]);
            && f'.settlement == Rejected(TimedOut)
            && f'.manager == Credentials.SetTokens(f.manager, reply.body.value, now)
            && f'.notified == 1
            && f'.statuses == f.statuses + [200]
  {
    var g := Step(f, expectedState, Timeout);
    assert [Timeout, ExchangeAnswered(reply, now)][1..] == [ExchangeAnswered(reply, now)];
    assert Run(f, expectedState, [Timeout, ExchangeAnswered(reply, now)])
        == Run(g, expectedState, [ExchangeAnswered(reply, now)]);
  }
}

=== FILE: authorize_key.dfy ===
/** The "connect" key of actions/authorize.ts: a press disconnects when
    connected and otherwise runs the authorization flow, with `busy`
    guarding against a second flow while one runs. */
module AuthorizeKey {
  import opened Wrappers
  import Credentials
  import AuthFlow

  datatype KeyState = KeyState(busy: bool)

  const Initial: KeyState := KeyState(false)

  /** The title the key shows when it appears. */
  function AppearTitle(m: Credentials.Manager): (t: string)
    ensures t == "Connected" <==> Credentials.IsAuthorized(m)
  {
    if Credentials.IsAuthorized(m) then "Connected" else "Connect"
  }

  datatype Effect = Ignored | Disconnected | StartedFlow

  /** What a press did: the key and manager after it, what it set off, and
      the title it set (None when it set none). */
  datatype Pressed = Pressed(key: KeyState, manager: Credentials.Manager, effect: Effect, title: Option<string>)

  /** `onKeyDown` up to the `await` of `authorize()`: ignored while busy;
      disconnects when authorized; otherwise marks the key busy and starts
      the flow. */
  function Press(k: KeyState, m: Credentials.Manager): (p: Pressed)
    ensures k.busy ==> p == Pressed(k, m, Ignored, None)
    ensures !k.busy && Credentials.IsAuthorized(m) ==>
              p.effect == Disconnected && !Credentials.IsAuthorized(p.manager) && !p.key.busy
    ensures p.effect == StartedFlow <==> !k.busy && !Credentials.IsAuthorized(m)
    ensures p.effect == StartedFlow ==> p.key.busy && p.manager == m
  {
    if k.busy then Pressed(k, m, Ignored, None)
    else if Credentials.IsAuthorized(m) then Pressed(k, Credentials.Disconnect(m), Disconnected, Some("Connect"))
    else Pressed(KeyState(true), m, StartedFlow, Some("Waiting..."))
  }

  /** The rest of `onKeyDown` once `authorize()` settled: the `finally`
      clears `busy` on success and on failure alike. */
  function AfterFlow(k: KeyState, outcome: AuthFlow.Settlement): (r: (KeyState, string))
    requires !outcome.Pending?
    ensures !r.0.busy
    ensures r.1 == "Connected" <==> outcome.Connected?
    ensures r.1 == "Failed" <==> outcome.Rejected?
  {
    (KeyState(false), if outcome.Connected? then "Connected" else "Failed")
  }

  /** While a flow runs, further presses neither start a second flow nor
      disconnect; once it settles the key takes presses again. */
  lemma BusyGuardsTheFlow(k: KeyState, m: Credentials.Manager, m': Credentials.Manager, outcome: AuthFlow.Settlement)
    requires Press(k, m).effect == StartedFlow && !outcome.Pending?
    ensures Press(Press(k, m).key, m').effect == Ignored
    ensures Press(AfterFlow(Press(k, m).key, outcome).0, m').effect != Ignored
  {
  }

  /** A press while connected never starts the authorization flow. */
  lemma ConnectedPressOnlyDisconnects(k: KeyState, m: Credentials.Manager)
    requires Credentials.IsAuthorized(m)
    ensures Press(k, m).effect != StartedFlow
    ensures Press(k, m).effect == Disconnected ==> Press(k, m).manager == Credentials.Disconnect(m)
  {
  }
}

=== FILE: composite.dfy ===
/** `likeAndAddToPlaylist` of spotify-api.ts: two independent mutations
    settled together (`Promise.allSettled`), reported leg by leg and never
    collapsed into one failure. */
module Composite {
  import opened Http
  import opened Wrappers
  import ApiClient

  const LikeLabel: string := "Like: "
  const PlaylistLabel: string := "Playlist: "

  datatype LikeAndAddResult = LikeAndAddResult(liked: bool, addedToPlaylist: bool, errors: seq<string>)

  /** The result of two settled legs: each flag reflects its own leg only,
      and there is one labelled error per rejected leg, the like leg's
      first. The mapping itself never fails. */
  function Combine(like: ApiClient.Settled, add: ApiClient.Settled): (r: LikeAndAddResult)
    ensures r.liked <==> like.Fulfilled?
    ensures r.addedToPlaylist <==> add.Fulfilled?
    ensures |r.errors| == (if like.Rejected? then 1 else 0) + (if add.Rejected? then 1 else 0)
    ensures r.errors == [] <==> r.liked && r.addedToPlaylist
    ensures like.Rejected? ==> r.errors[0] == LikeLabel + like.message
    ensures add.Rejected? ==> r.errors[|r.errors| - 1] == PlaylistLabel + add.message
  {
    var likeErrors := if like.Rejected? then [LikeLabel + like.message] else [];
    var addErrors := if add.Rejected? then [PlaylistLabel + add.message] else [];
    LikeAndAddResult(like.Fulfilled?, add.Fulfilled?, likeErrors + addErrors)
  }

  /** `likeAndAddToPlaylist` over what the two requests returned: saving
      to the library and adding to the playlist settle independently. */
  function LikeAndAddToPlaylist(likeFetch: Result<Response<()>, ApiClient.FetchError>,
                                addFetch: Result<Response<()>, ApiClient.FetchError>): (r: LikeAndAddResult)
    ensures r.liked <==> likeFetch.Ok? && IsOk(likeFetch.value.status)
    ensures r.addedToPlaylist <==> addFetch.Ok? && IsOk(addFetch.value.status)
    ensures 0 <= |r.errors| <= 2
  {
    Combine(ApiClient.Mutation("Save to library", likeFetch), ApiClient.Mutation("Add to playlist", addFetch))
  }

  /** Whether `prefix` starts `s`. */
  predicate StartsWith(s: string, prefix: string) {
    |prefix| <= |s| && s[..|prefix|] == prefix
  }

  /** The errors say which legs failed: an entry labelled `Like:` is there
      exactly when the like leg was rejected, and one labelled
      `Playlist:` exactly when the playlist leg was. */
  lemma ErrorsNameTheFailedLegs(like: ApiClient.Settled, add: ApiClient.Settled)
    ensures var r := Combine(like, add);
            && ((exists i | 0 <= i < |r.errors| :: StartsWith(r.errors[i], LikeLabel)) <==> like.Rejected?)
            && ((exists i | 0 <= i < |r.errors| :: StartsWith(r.errors[i], PlaylistLabel)) <==> add.Rejected?)
  {
    var r := Combine(like, add);
    forall i | 0 <= i < |r.errors|
      ensures StartsWith(r.errors[i], LikeLabel) <==> r.errors[i][0] == 'L'
      ensures StartsWith(r.errors[i], PlaylistLabel) <==> r.errors[i][0] == 'P'
    {
      assert (like.Rejected? && r.errors[i] == LikeLabel + like.message)
          || (add.Rejected? && r.errors[i] == PlaylistLabel + add.message);
      if like.Rejected? && r.errors[i] == LikeLabel + like.message {
        assert r.errors[i][..|LikeLabel|] == LikeLabel;
        assert r.errors[i][0] == 'L';
      } else {
        assert r.errors[i][..|PlaylistLabel|] == PlaylistLabel;
        assert r.errors[i][0] == 'P';
      }
    }
    if like.Rejected? {
      assert StartsWith(r.errors[0], LikeLabel);
    }
    if add.Rejected? {
      assert StartsWith(r.errors[|r.errors| - 1], PlaylistLabel);
    }
  }
}

=== FILE: credentials.dfy ===
/** The credential manager of spotify-auth.ts: the token record, its
    renewal (section 6 of RFC 6749), the proactive-renewal schedule, the
    token file, and `disconnect`. Time is an explicit `now` in
    milliseconds; the pending renewal timer is stored as its delay. */
module Credentials {
  import opened Wrappers
  import opened Http
  import Text

  /** `getAccessToken` renews when the token expires within this margin. */
  const ExpiryMarginMs: int := 60_000
  /** The proactive renewal is scheduled this long before expiry ... */
  const RenewLeadSecs: int := 120
  /** ... but never sooner than this. */
  const MinRenewDelayMs: int := 30_000

  /** `SpotifyTokens`: `expiresAt` is an absolute time in milliseconds. */
  datatype Tokens = Tokens(accessToken: string, refreshToken: string, expiresAt: int)

  /** What the token file holds: nothing, text that does not parse, or a
      parsed JSON value (`null` reads as None). */
  datatype TokenFile = Absent | Unparsable | Json(record: Option<Tokens>)

  /** The manager's state: the in-memory credential, the one pending
      renewal timer (its delay in milliseconds), and the token file. */
  datatype Manager = Manager(tokens: Option<Tokens>, pendingRenewal: Option<int>, file: TokenFile)

  /** A successful token-endpoint response (section 5.1 of RFC 6749):
      `refreshToken` is None when the response omits `refresh_token`. */
  datatype TokenResponse = TokenResponse(accessToken: string, refreshToken: Option<string>, expiresIn: int)

  /** The outcome of one POST to the token endpoint: a response, or a
      `fetch` that rejected (the endpoint was unreachable). */
  datatype TokenReply = Reply(status: int, body: Option<TokenResponse>) | Unreachable

  datatype AuthError =
    | NotAuthorized
    | NoRefreshToken
    | RefreshFailed(status: int)
    | ExchangeFailed
    | NetworkFailure
    | MalformedResponse

  /** The message of the error each failure throws. */
  function Message(e: AuthError): string {
    match e
    case NotAuthorized => "Not authorized"
    case NoRefreshToken => "No refresh token."
    case RefreshFailed(status) => "Token refresh failed: " + Text.SignedDecimal(status)
    case ExchangeFailed => "Token exchange failed"
    case NetworkFailure => "fetch failed"
    case MalformedResponse => "Unexpected token response"
  }

  /** `isAuthorized`: a credential is held and its refresh token is truthy,
      so a record whose refresh token is `""` does not count. */
  function IsAuthorized(m: Manager): (yes: bool)
    ensures yes ==> m.tokens.Some?
    ensures m.tokens.Some? ==> (yes <==> |m.tokens.value.refreshToken| > 0)
  {
    m.tokens.Some? && m.tokens.value.refreshToken != ""
  }

  /** Whether `getAccessToken` renews before answering: the token expires
      within the next 60 s, or already has. */
  function NeedsRenewal(t: Tokens, now: int): (renew: bool)
    ensures renew <==> t.expiresAt - now <= ExpiryMarginMs
    ensures t.expiresAt <= now ==> renew
  {
    now >= t.expiresAt - ExpiryMarginMs
  }

  /** `scheduleRefresh`: the delay before the proactive renewal, the larger
      of "120 s before expiry" and 30 s. */
  function RenewalDelay(expiresInSecs: int): (ms: int)
    ensures ms >= MinRenewDelayMs
    ensures ms >= (expiresInSecs - RenewLeadSecs) * 1000
    ensures ms == MinRenewDelayMs || ms == (expiresInSecs - RenewLeadSecs) * 1000
  {
    var lead := (expiresInSecs - RenewLeadSecs) * 1000;
    if lead > MinRenewDelayMs then lead else MinRenewDelayMs
  }

  /** A token granted for at least 150 s is renewed by the schedule
      120 s before it expires, which is before `getAccessToken` would
      consider it expiring. */
  lemma ScheduledRenewalPrecedesExpiryWindow(resp: TokenResponse, now: int)
    requires resp.expiresIn >= 150
    ensures var fireAt := now + RenewalDelay(resp.expiresIn);
            var expiresAt := now + resp.expiresIn * 1000;
            && fireAt == expiresAt - RenewLeadSecs * 1000
            && !NeedsRenewal(Tokens(resp.accessToken, "", expiresAt), fireAt)
  {
  }

  /** `setTokens` followed by `saveTokens` and `scheduleRefresh`: the new
      record takes the response's access token and lifetime and keeps the
      previous refresh token when the response carries none; it is written
      to the token file and replaces any pending renewal. */
  function SetTokens(m: Manager, resp: TokenResponse, now: int): (m': Manager)
    ensures m'.tokens.Some?
    ensures m'.tokens.value.accessToken == resp.accessToken
    ensures m'.tokens.value.expiresAt - now == resp.expiresIn * 1000
    ensures resp.refreshToken.Some? ==> m'.tokens.value.refreshToken == resp.refreshToken.value
    ensures resp.refreshToken.None? && m.tokens.Some? ==> m'.tokens.value.refreshToken == m.tokens.value.refreshToken
    ensures resp.refreshToken.None? && m.tokens.None? ==> m'.tokens.value.refreshToken == ""
    ensures m'.file == Json(m'.tokens)
    ensures m'.pendingRenewal == Some(RenewalDelay(resp.expiresIn))
  {
    var previous := if m.tokens.Some? then m.tokens.value.refreshToken else "";
    var t := Tokens(resp.accessToken, resp.refreshToken.GetOr(previous), now + resp.expiresIn * 1000);
    Manager(Some(t), Some(RenewalDelay(resp.expiresIn)), Json(Some(t)))
  }

  /** The refresh token is never lost: an authorized manager stays
      authorized across any token response that does not itself carry an
      empty `refresh_token`. */
  lemma RefreshTokenNeverLost(m: Manager, resp: TokenResponse, now: int)
    requires IsAuthorized(m)
    requires resp.refreshToken != Some("")
    ensures IsAuthorized(SetTokens(m, resp, now))
    ensures resp.refreshToken.None? ==> SetTokens(m, resp, now).tokens.value.refreshToken == m.tokens.value.refreshToken
  {
  }

  /** `disconnect`: drop the credential, cancel the pending renewal, delete
      the token file. */
  function Disconnect(m: Manager): (m': Manager)
    ensures !IsAuthorized(m')
    ensures m'.tokens.None? && m'.pendingRenewal.None? && m'.file.Absent?
  {
    Manager(None, None, Absent)
  }

  /** `refreshAccessToken`: without a refresh token it fails before any
      request; a 400 or 401 from the token endpoint disconnects and fails;
      any other failure leaves the state alone; success installs the new
      record. */
  function Renew(m: Manager, reply: TokenReply, now: int): (res: (Manager, Outcome<AuthError>))
    ensures !IsAuthorized(m) ==> res == (m, Fail(NoRefreshToken))
    ensures res.1.Pass? <==> IsAuthorized(m) && reply.Reply? && IsOk(reply.status) && reply.body.Some?
    ensures res.1.Pass? ==> res.0 == SetTokens(m, reply.body.value, now)
    ensures IsAuthorized(m) && reply.Reply? && reply.status in {400, 401} ==> res.0 == Disconnect(m) && res.1 == Fail(RefreshFailed(reply.status))
    ensures res.1.Fail? && res.0 != m ==> IsAuthorized(m) && reply.Reply? && reply.status in {400, 401}
  {
    if !IsAuthorized(m) then (m, Fail(NoRefreshToken))
    else
      match reply
      case Unreachable => (m, Fail(NetworkFailure))
      case Reply(status, body) =>
        if !IsOk(status) then
          if status == 400 || status == 401 then (Disconnect(m), Fail(RefreshFailed(status)))
          else (m, Fail(RefreshFailed(status)))
        else
          match body
          case None => (m, Fail(MalformedResponse))
          case Some(resp) => (SetTokens(m, resp, now), Pass)
  }

  /** `getAccessToken`: fails without a credential; renews first exactly
      when the token expires within 60 s; otherwise hands out the stored
      access token and changes nothing. `reply` is what the token
      endpoint would answer if asked. */
  function GetAccessToken(m: Manager, now: int, reply: TokenReply): (res: (Manager, Result<string, AuthError>))
    ensures m.tokens.None? ==> res == (m, Err(NotAuthorized))
    ensures m.tokens.Some? && !NeedsRenewal(m.tokens.value, now) ==> res == (m, Ok(m.tokens.value.accessToken))
    ensures m.tokens.Some? && NeedsRenewal(m.tokens.value, now) ==> res.0 == Renew(m, reply, now).0
    ensures m.tokens.Some? && NeedsRenewal(m.tokens.value, now) ==> (res.1.Ok? <==> Renew(m, reply, now).1.Pass?)
    ensures m.tokens.Some? && NeedsRenewal(m.tokens.value, now) && res.1.Err? ==> res.1.error == Renew(m, reply, now).1.error
    ensures res.1.Ok? ==> res.0.tokens.Some? && res.1.value == res.0.tokens.value.accessToken
  {
    match m.tokens
    case None => (m, Err(NotAuthorized))
    case Some(t) =>
      if NeedsRenewal(t, now) then
        var (m', outcome) := Renew(m, reply, now);
        match outcome
        case Fail(e) => (m', Err(e))
        case Pass => (m', Ok(m'.tokens.value.accessToken))
      else (m, Ok(t.accessToken))
  }

  /** A token handed out by getAccessToken is not about to expire, unless
      the renewal it just made granted a lifetime of 60 s or less. */
  lemma AccessTokenIsFresh(m: Manager, now: int, reply: TokenReply)
    requires GetAccessToken(m, now, reply).1.Ok?
    ensures var m' := GetAccessToken(m, now, reply).0;
            || !NeedsRenewal(m'.tokens.value, now)
            || (reply.Reply? && IsOk(reply.status) && reply.body.Some? && reply.body.value.expiresIn * 1000 <= ExpiryMarginMs)
  {
  }

  /** `exchangeCode`: a successful token response installs the credential;
      anything else fails and changes nothing. */
  function ExchangeCode(m: Manager, reply: TokenReply, now: int): (res: (Manager, Outcome<AuthError>))
    ensures res.1.Pass? <==> reply.Reply? && IsOk(reply.status) && reply.body.Some?
    ensures res.1.Pass? ==> res.0 == SetTokens(m, reply.body.value, now)
    ensures res.1.Fail? ==> res.0 == m
  {
    match reply
    case Unreachable => (m, Fail(NetworkFailure))
    case Reply(status, body) =>
      if IsOk(status) && body.Some? then (SetTokens(m, body.value, now), Pass)
      else (m, Fail(ExchangeFailed))
  }

  /** The scheduled renewal firing: the timer is spent, the renewal runs,
      and its failure is only logged. */
  function RunScheduledRenewal(m: Manager, reply: TokenReply, now: int): (m': Manager)
    ensures m'.pendingRenewal.Some? <==> IsAuthorized(m) && reply.Reply? && IsOk(reply.status) && reply.body.Some?
    ensures IsAuthorized(m) && reply.Reply? && IsOk(reply.status) && reply.body.Some? ==>
              && m'.tokens == SetTokens(m, reply.body.value, now).tokens
              && m'.file == SetTokens(m, reply.body.value, now).file
    ensures IsAuthorized(m) && reply.Reply? && reply.status in {400, 401} ==>
              m'.tokens.None? && m'.file.Absent?
    ensures !(IsAuthorized(m) && reply.Reply? && (reply.status in {400, 401} || (IsOk(reply.status) && reply.body.Some?))) ==>
              m'.tokens == m.tokens && m'.file == m.file
  {
    Renew(m.(pendingRenewal := None), reply, now).0
  }

  /** `loadTokens` at construction: a parsed record is kept even when
      expired, and a renewal is scheduled only if it has not expired yet;
      an unparsable file leaves no credential. */
  function LoadTokens(file: TokenFile, now: int): (m: Manager)
    ensures m.file == file
    ensures file.Json? ==> m.tokens == file.record
    ensures !file.Json? ==> m.tokens.None?
    ensures m.pendingRenewal.Some? <==> m.tokens.Some? && m.tokens.value.expiresAt > now
    ensures m.pendingRenewal.Some? ==> m.pendingRenewal.value >= MinRenewDelayMs
    ensures m.tokens.Some? && m.tokens.value.expiresAt > now ==>
              m.pendingRenewal == Some(RenewalDelay((m.tokens.value.expiresAt - now) / 1000))
  {
    match file
    case Absent => Manager(None, None, file)
    case Unparsable => Manager(None, None, file)
    case Json(record) =>
      if record.Some? && record.value.expiresAt > now then
        var secs := (record.value.expiresAt - now) / 1000;
        Manager(record, Some(RenewalDelay(secs)), file)
      else Manager(record, None, file)
  }

  /** The token file round-trips: a manager restarted after a token
      exchange or renewal loads the very record that was written, and is
      authorized exactly when the running one was. */
  lemma SaveLoadRoundTrip(m: Manager, resp: TokenResponse, now: int, later: int)
    ensures var saved := SetTokens(m, resp, now);
            var loaded := LoadTokens(saved.file, later);
            && loaded.tokens == saved.tokens
            && (IsAuthorized(loaded) <==> IsAuthorized(saved))
  {
  }

  /** After `disconnect` a restart finds no credential. */
  lemma DisconnectSurvivesRestart(m: Manager, later: int)
    ensures !IsAuthorized(LoadTokens(Disconnect(m).file, later))
  {
  }
}

=== FILE: env_file.dfy ===
/** The `.env` reader of spotify-auth.ts: splitting the file into lines,
    trimming, the `KEY=VALUE` rule, the choice among candidate files, and
    the `getEnv` lookup order. */
module EnvFile {
  import opened Wrappers

  /** The characters ECMAScript's `String.prototype.trim` removes: the
      WhiteSpace and LineTerminator code points. */
  predicate IsSpace(c: char) {
    || c == ' ' || c == '\t' || c == '\n' || c == '\r'
    || c == '\U{000B}' || c == '\U{000C}' || c == '\U{00A0}' || c == '\U{FEFF}'
    || c == '\U{1680}' || ('\U{2000}' <= c <= '\U{200A}')
    || c == '\U{2028}' || c == '\U{2029}' || c == '\U{202F}' || c == '\U{205F}'
    || c == '\U{3000}'
  }

  predicate AllSpace(s: string) {
    forall i | 0 <= i < |s| :: IsSpace(s[i])
  }

  /** A string with no surrounding white space. */
  predicate IsTrimmed(s: string) {
    s == [] || (!IsSpace(s[0]) && !IsSpace(s[|s| - 1]))
  }

  function TrimStart(s: string): (r: string)
    ensures |r| <= |s| && r == s[|s| - |r|..]
    ensures AllSpace(s[..|s| - |r|])
    ensures r == [] || !IsSpace(r[0])
  {
    if |s| > 0 && IsSpace(s[0]) then TrimStart(s[1..]) else s
  }

  function TrimEnd(s: string): (r: string)
    ensures |r| <= |s| && r == s[..|r|]
    ensures AllSpace(s[|r|..])
    ensures r == [] || !IsSpace(r[|r| - 1])
  {
    if |s| > 0 && IsSpace(s[|s| - 1]) then TrimEnd(s[..|s| - 1]) else s
  }

  /** `String.prototype.trim`: no surrounding white space is left, the
      result is empty exactly for an all-blank string, and a string that
      has none to remove is returned as it is. */
  function Trim(s: string): (r: string)
    ensures IsTrimmed(r)
    ensures |r| <= |s|
    ensures r == [] <==> AllSpace(s)
    ensures IsTrimmed(s) ==> r == s
  {
    var t := TrimStart(s);
    var r := TrimEnd(t);
    assert r != [] ==> r[0] == t[0];
    assert AllSpace(t) ==> AllSpace(s) by {
      if AllSpace(t) {
        assert s == s[..|s| - |t|] + t;
      }
    }
    r
  }

  /** What Trim keeps is one slice of its input, and everything it cuts
      off on either side is white space. */
  lemma TrimIsSlice(s: string)
    ensures var r := Trim(s);
            && |s| - |TrimStart(s)| + |r| <= |s|
            && r == s[|s| - |TrimStart(s)|..|s| - |TrimStart(s)| + |r|]
            && AllSpace(s[..|s| - |TrimStart(s)|])
            && AllSpace(s[|s| - |TrimStart(s)| + |r|..])
  {
    var t := TrimStart(s);
    var r := TrimEnd(t);
    var a := |s| - |t|;
    assert s[a + |r|..] == t[|r|..];
  }

  /** Trim is idempotent. */
  lemma TrimIdempotent(s: string)
    ensures Trim(Trim(s)) == Trim(s)
  {
  }

  /** `indexOf` for one character: the position of its first occurrence. */
  function IndexOf(s: string, c: char): (r: Option<nat>)
    ensures r.None? <==> c !in s
    ensures r.Some? ==> r.value < |s| && s[r.value] == c && c !in s[..r.value]
  {
    if |s| == 0 then None
    else if s[0] == c then Some(0)
    else
      match IndexOf(s[1..], c)
      case None => None
      case Some(i) =>
        assert s[..i + 1] == [s[0]] + s[1..][..i];
        Some(i + 1)
  }

  /** A position holding `c` with no `c` before it is what IndexOf finds. */
  lemma IndexOfFirst(s: string, c: char, k: nat)
    requires k < |s| && s[k] == c && c !in s[..k]
    ensures IndexOf(s, c) == Some(k)
  {
    assert s[..k + 1][k] == c;
  }

  /** `split("\n")`. */
  function SplitLines(s: string): (lines: seq<string>)
    ensures |lines| >= 1
    ensures forall i | 0 <= i < |lines| :: '\n' !in lines[i]
    ensures JoinLines(lines) == s
    decreases |s|
  {
    match IndexOf(s, '\n')
    case None => [s]
    case Some(i) =>
      var rest := SplitLines(s[i + 1..]);
      assert s == s[..i] + "\n" + s[i + 1..];
      [s[..i]] + rest
  }

  /** The inverse of SplitLines: lines joined with a newline between each pair. */
  function JoinLines(lines: seq<string>): string {
    if |lines| == 0 then ""
    else if |lines| == 1 then lines[0]
    else lines[0] + "\n" + JoinLines(lines[1..])
  }

  /** Splitting undoes joining, for lines that hold no newline themselves. */
  lemma {:induction false} SplitJoinRoundTrip(lines: seq<string>)
    requires |lines| >= 1
    requires forall i | 0 <= i < |lines| :: '\n' !in lines[i]
    ensures SplitLines(JoinLines(lines)) == lines
  {
    if |lines| == 1 {
      assert IndexOf(lines[0], '\n').None?;
    } else {
      var s := JoinLines(lines);
      var k := |lines[0]|;
      assert s == lines[0] + "\n" + JoinLines(lines[1..]);
      assert s[k] == '\n' && s[..k] == lines[0];
      IndexOfFirst(s, '\n', k);
      assert s[k + 1..] == JoinLines(lines[1..]);
      SplitJoinRoundTrip(lines[1..]);
    }
  }

  /** A line that defines a variable: after trimming it is not blank, is
      not a `#` comment, and holds an `=` that is not its first character. */
  predicate IsEntryLine(t: string) {
    t != [] && t[0] != '#' && t[0] != '=' && '=' in t
  }

  /** Position `i` of `t` holds its first `=`, and that is not the first
      character. */
  predicate FirstEqualsAt(t: string, i: int) {
    0 < i < |t| && t[i] == '=' && '=' !in t[..i]
  }

  /** One line of the `.env` file: the key is the trimmed text before the
      first `=`, the value the trimmed text after it (so it may hold `=`). */
  function ParseLine(line: string): (r: Option<(string, string)>)
    ensures r.Some? <==> IsEntryLine(Trim(line))
    ensures r.Some? ==> IsTrimmed(r.value.0) && IsTrimmed(r.value.1) && r.value.0 != []
  {
    var t := Trim(line);
    if t == [] || t[0] == '#' then None
    else
      match IndexOf(t, '=')
      case None => None
      case Some(i) =>
        if i > 0 then
          var key := Trim(t[..i]);
          assert t[..i][0] == t[0];
          Some((key, Trim(t[i + 1..])))
        else None
  }

  /** An entry splits at its first `=`: the key is the trimmed text before
      it and the value the trimmed text after it. */
  lemma ParseLineSplitsAtFirstEquals(line: string)
    requires ParseLine(line).Some?
    ensures var t := Trim(line);
            exists i | FirstEqualsAt(t, i) ::
              ParseLine(line).value == (Trim(t[..i]), Trim(t[i + 1..]))
  {
    var t := Trim(line);
    var i := IndexOf(t, '=').value;
    assert FirstEqualsAt(t, i) && ParseLine(line).value == (Trim(t[..i]), Trim(t[i + 1..]));
  }

  /** The text of an entry line for `key` and `value`. */
  function FormatLine(key: string, value: string): string {
    key + "=" + value
  }

  /** A key that reads back unchanged: non-empty, no `=`, not a comment,
      no surrounding white space. */
  predicate IsWritableKey(key: string) {
    key != [] && IsTrimmed(key) && '=' !in key && key[0] != '#'
  }

  /** Parsing a formatted entry gives back its key and value, whatever `=`
      the value holds. */
  lemma ParseFormatRoundTrip(key: string, value: string)
    requires IsWritableKey(key) && IsTrimmed(value)
    ensures ParseLine(FormatLine(key, value)) == Some((key, value))
  {
    var line := FormatLine(key, value);
    assert IsTrimmed(line);
    var k := |key|;
    assert line[k] == '=' && line[..k] == key && line[k + 1..] == value;
    IndexOfFirst(line, '=', k);
  }

  /** Whether `line` assigns some value to `key`. */
  predicate Defines(line: string, key: string) {
    ParseLine(line).Some? && ParseLine(line).value.0 == key
  }

  /** One line's effect on the variables read so far. */
  function Apply(env: map<string, string>, line: string): map<string, string> {
    match ParseLine(line)
    case Some(kv) => env[kv.0 := kv.1]
    case None => env
  }

  /** The variables of a `.env` file given as lines, read top to bottom, a
      later assignment overwriting an earlier one. */
  function ParseEnv(lines: seq<string>): (env: map<string, string>)
    ensures lines == [] ==> env == map[]
    ensures forall k | k in env :: k != [] && IsTrimmed(k) && IsTrimmed(env[k])
  {
    if lines == [] then map[]
    else Apply(ParseEnv(lines[..|lines| - 1]), lines[|lines| - 1])
  }

  /** Every variable read comes from some line that defines it. */
  lemma {:induction false} KeysComeFromLines(lines: seq<string>, key: string)
    requires key in ParseEnv(lines)
    ensures exists i | 0 <= i < |lines| :: Defines(lines[i], key)
    decreases |lines|
  {
    var last := |lines| - 1;
    var prefix := lines[..last];
    if !Defines(lines[last], key) {
      ApplyKeepsOthers(ParseEnv(prefix), lines[last], key);
      KeysComeFromLines(prefix, key);
      var i :| 0 <= i < |prefix| && Defines(prefix[i], key);
      assert prefix[i] == lines[i];
    }
  }

  /** The last line that defines a key decides its value. */
  lemma {:induction false} LastDefinitionWins(lines: seq<string>, i: nat, key: string, value: string)
    requires i < |lines| && ParseLine(lines[i]) == Some((key, value))
    requires forall j | i < j < |lines| :: !Defines(lines[j], key)
    ensures key in ParseEnv(lines) && ParseEnv(lines)[key] == value
    decreases |lines|
  {
    var last := |lines| - 1;
    if i < last {
      var prefix := lines[..last];
      assert prefix[i] == lines[i];
      NotDefinedLater(lines, prefix, i, key);
      LastDefinitionWins(prefix, i, key, value);
      ApplyKeepsOthers(ParseEnv(prefix), lines[last], key);
    } else {
      assert i == last;
      ApplyDefining(ParseEnv(lines[..last]), lines[i], key, value);
    }
  }

  /** Dropping the last line keeps "not defined after i". */
  lemma NotDefinedLater(lines: seq<string>, prefix: seq<string>, i: nat, key: string)
    requires i < |lines| - 1 && prefix == lines[..|lines| - 1]
    requires forall j | i < j < |lines| :: !Defines(lines[j], key)
    ensures forall j | i < j < |prefix| :: !Defines(prefix[j], key)
    ensures !Defines(lines[|lines| - 1], key)
  {
    forall j | i < j < |prefix|
      ensures !Defines(prefix[j], key)
    {
      assert prefix[j] == lines[j];
    }
  }

  /** A line that defines `key` sets it, whatever was read before. */
  lemma ApplyDefining(env: map<string, string>, line: string, key: string, value: string)
    requires ParseLine(line) == Some((key, value))
    ensures Apply(env, line) == env[key := value]
  {
  }

  /** A line that does not define `key` leaves its value alone. */
  lemma ApplyKeepsOthers(env: map<string, string>, line: string, key: string)
    requires !Defines(line, key)
    ensures key in Apply(env, line) <==> key in env
    ensures key in env ==> Apply(env, line)[key] == env[key]
  {
  }

  /** What a candidate `.env` path yields: no file, a file that cannot be
      read, or the file's text. */
  datatype EnvProbe = Missing | Unreadable | Readable(content: string)

  /** `loadEnv`: the first readable candidate is parsed and the rest are
      ignored; with none readable the environment is empty. */
  function LoadEnv(candidates: seq<EnvProbe>): (env: map<string, string>)
    ensures (forall i | 0 <= i < |candidates| :: !candidates[i].Readable?) ==> env == map[]
  {
    if candidates == [] then map[]
    else if candidates[0].Readable? then ParseEnv(SplitLines(candidates[0].content))
    else LoadEnv(candidates[1..])
  }

  /** LoadEnv reads exactly the first readable candidate. */
  lemma {:induction false} LoadEnvReadsFirstReadable(candidates: seq<EnvProbe>, i: nat)
    requires i < |candidates| && candidates[i].Readable?
    requires forall j | 0 <= j < i :: !candidates[j].Readable?
    ensures LoadEnv(candidates) == ParseEnv(SplitLines(candidates[i].content))
  {
    if i > 0 {
      LoadEnvReadsFirstReadable(candidates[1..], i - 1);
    }
  }

  /** `getEnv`: the `.env` value wins, then the process environment, then "". */
  function GetEnv(dotenv: map<string, string>, processEnv: map<string, string>, key: string): (v: string)
    ensures key in dotenv ==> v == dotenv[key]
    ensures key !in dotenv && key in processEnv ==> v == processEnv[key]
    ensures key !in dotenv && key !in processEnv ==> v == ""
  {
    if key in dotenv then dotenv[key]
    else if key in processEnv then processEnv[key]
    else ""
  }

  /** A variable written in the `.env` file hides the process environment:
      the last line defining it decides what getEnv returns. */
  lemma EnvFileOverridesProcess(lines: seq<string>, i: nat, key: string, value: string,
                                processEnv: map<string, string>)
    requires i < |lines| && ParseLine(lines[i]) == Some((key, value))
    requires forall j | i < j < |lines| :: !Defines(lines[j], key)
    ensures GetEnv(ParseEnv(lines), processEnv, key) == value
  {
    LastDefinitionWins(lines, i, key, value);
  }
}

=== FILE: http.dfy ===
/** The parts of an HTTP exchange the model looks at. */
module Http {
  import opened Wrappers

  /** The `Response.ok` flag of the Fetch standard: a status in 200..299. */
  predicate IsOk(status: int) {
    200 <= status <= 299
  }

  /** A received response: its status, the parsed `Retry-After` header in
      seconds (None when absent), and its parsed JSON body (None when the
      body is empty or not JSON, so that `resp.json()` would reject). */
  datatype Response<B> = Response(status: int, retryAfter: Option<int>, body: Option<B>)
}

=== FILE: like_and_add.dfy ===
/** The "like and add" key of actions/like-and-add.ts: `isDone` is true
    when the current track is both liked and in the chosen playlist; a
    press does like+add or, when done, undoes both. */
module LikeAndAddKey {
  import opened Wrappers
  import opened ActionKit
  import ApiClient
  import Composite
  import Text

  datatype KeyState = KeyState(lastTrackUri: Option<string>, isDone: bool)

  /** The answer of `unlikeAndRemoveFromPlaylist`, which is not part of
      this model and arrives as an input. */
  datatype UndoResult = UndoResult(unliked: bool, removedFromPlaylist: bool, errors: seq<string>)

  const Initial: KeyState := KeyState(None, false)

  /** `onDidReceiveSettings`: a new playlist forgets the last track seen
      and returns the key to its "add" state. */
  function SettingsChanged(s: KeyState): (s': KeyState)
    ensures s'.lastTrackUri.None? && !s'.isDone
  {
    Initial
  }

  /** `onKeyDown`. The inputs are what each call would answer: the current
      track, the liked / in-playlist checks (which fail together, as
      `Promise.all` does), the two legs of like+add, and the undo. */
  function KeyDown(s: KeyState, authorized: bool, playlistId: string,
                   current: Result<Option<ApiClient.Playing>, ApiClient.ApiError>,
                   checks: Result<(bool, bool), string>,
                   like: ApiClient.Settled, add: ApiClient.Settled,
                   undo: Result<UndoResult, string>): (p: Press<KeyState>)
    ensures p.state.lastTrackUri == s.lastTrackUri
    ensures !authorized || playlistId == "" ==> p.state == s && p.calls == [] && p.indicator == ShowAlert
    ensures p.state.isDone != s.isDone ==> authorized && playlistId != "" && PlayingItem(current).Ok? && PlayingItem(current).value.Some?
    ensures LikeAndAdd in p.calls ==> !s.isDone && checks.Ok? && !(checks.value.0 && checks.value.1)
    ensures UnlikeAndRemove in p.calls ==> s.isDone
    ensures !s.isDone && checks.Err? ==> p.state == s && LikeAndAdd !in p.calls
    ensures s.isDone && undo.Err? ==> p.state == s
  {
    if !authorized then Press(s, "Auth\nFirst!", ShowAlert, [])
    else if playlistId == "" then Press(s, "Set\nPlaylist", ShowAlert, [])
    else
      match PlayingItem(current)
      case Err(_) => Press(s, "Error", ShowAlert, [ReadCurrentTrack])
      case Ok(None) => Press(s, "No\nTrack", ShowAlert, [ReadCurrentTrack])
      case Ok(Some(track)) =>
        var name := Text.Trunc(track.name, TitleWidth);
        if s.isDone then
          var calls := [ReadCurrentTrack, UnlikeAndRemove];
          match undo
          case Err(_) => Press(s, "Error", ShowAlert, calls)
          case Ok(u) =>
            if u.errors == [] then Press(s.(isDone := false), "Undone!\n" + name, ShowOk, calls)
            else if u.removedFromPlaylist then Press(s.(isDone := false), "Removed\n(like err)", ShowOk, calls)
            else if u.unliked then Press(s, "Unliked\n(rm err)", ShowAlert, calls)
            else Press(s, "Error", ShowAlert, calls)
        else
          var checked := [ReadCurrentTrack, CheckSaved, CheckInPlaylist];
          match checks
          case Err(_) => Press(s, "Error", ShowAlert, checked)
          case Ok((liked, inPlaylist)) =>
            if liked && inPlaylist then Press(s.(isDone := true), "Already\nDone", ShowAlert, checked)
            else
              var calls := checked + [LikeAndAdd];
              var r := Composite.Combine(like, add);
              if r.errors == [] then Press(s.(isDone := true), "Done!\n" + name, ShowOk, calls)
              else if r.addedToPlaylist then Press(s.(isDone := true), "Added!\n(like err)", ShowOk, calls)
              else if r.liked then Press(s, "Liked!\n(add err)", ShowAlert, calls)
              else Press(s, "Error", ShowAlert, calls)
  }

  /** A track already liked and in the playlist flips the key to "done"
      without calling like+add. */
  lemma AlreadyDoneSkipsLikeAndAdd(s: KeyState, playlistId: string, current: Result<Option<ApiClient.Playing>, ApiClient.ApiError>,
                                   like: ApiClient.Settled, add: ApiClient.Settled, undo: Result<UndoResult, string>)
    requires !s.isDone && playlistId != ""
    requires PlayingItem(current).Ok? && PlayingItem(current).value.Some?
    ensures var p := KeyDown(s, true, playlistId, current, Ok((true, true)), like, add, undo);
            p.state.isDone && LikeAndAdd !in p.calls
  {
  }

  /** After like+add the key is "done" exactly when the playlist leg
      succeeded; a like that succeeded alone leaves it as it was. */
  lemma DoneIffAdded(s: KeyState, playlistId: string, current: Result<Option<ApiClient.Playing>, ApiClient.ApiError>,
                     liked: bool, inPlaylist: bool,
                     like: ApiClient.Settled, add: ApiClient.Settled, undo: Result<UndoResult, string>)
    requires !s.isDone && playlistId != "" && !(liked && inPlaylist)
    requires PlayingItem(current).Ok? && PlayingItem(current).value.Some?
    ensures var p := KeyDown(s, true, playlistId, current, Ok((liked, inPlaylist)), like, add, undo);
            && LikeAndAdd in p.calls
            && (p.state.isDone <==> add.Fulfilled?)
  {
  }

  /** After the undo the key leaves "done" exactly when the playlist
      removal succeeded or nothing failed; an unlike that succeeded alone
      keeps it "done". */
  lemma UndoClearsDoneIffRemoved(s: KeyState, playlistId: string, current: Result<Option<ApiClient.Playing>, ApiClient.ApiError>,
                                 checks: Result<(bool, bool), string>,
                                 like: ApiClient.Settled, add: ApiClient.Settled, u: UndoResult)
    requires s.isDone && playlistId != ""
    requires PlayingItem(current).Ok? && PlayingItem(current).value.Some?
    ensures var p := KeyDown(s, true, playlistId, current, checks, like, add, Ok(u));
            && UnlikeAndRemove in p.calls
            && (!p.state.isDone <==> u.removedFromPlaylist || u.errors == [])
  {
  }

  /** The poll (every 60 s): when the current track differs from the last
      one seen, remember it and, unless rate-limited by then, set `isDone`
      to "liked and in the playlist". A failed check leaves `isDone` but
      the track is still remembered. */
  function Poll(s: KeyState, authorized: bool, rateLimited: bool, playlistId: string,
                current: Result<Option<ApiClient.Playing>, ApiClient.ApiError>,
                rateLimitedAfterRead: bool, checks: Result<(bool, bool), string>): (s': KeyState)
    ensures s'.isDone != s.isDone ==>
              && PlayingItem(current).Ok? && PlayingItem(current).value.Some?
              && s.lastTrackUri != Some(PlayingItem(current).value.value.uri)
              && !rateLimitedAfterRead && checks.Ok?
              && s'.isDone == (checks.value.0 && checks.value.1)
    ensures s'.lastTrackUri != s.lastTrackUri ==>
              && authorized && !rateLimited && playlistId != ""
              && PlayingItem(current).Ok? && PlayingItem(current).value.Some?
              && s'.lastTrackUri == Some(PlayingItem(current).value.value.uri)
    ensures (&& authorized && !rateLimited && playlistId != ""
             && PlayingItem(current).Ok? && PlayingItem(current).value.Some?
             && s.lastTrackUri != Some(PlayingItem(current).value.value.uri)) ==>
              && s'.lastTrackUri == Some(PlayingItem(current).value.value.uri)
              && (!rateLimitedAfterRead && checks.Ok? ==> s'.isDone == (checks.value.0 && checks.value.1))
  {
    if !authorized || rateLimited || playlistId == "" then s
    else
      match PlayingItem(current)
      case Err(_) => s
      case Ok(None) => s
      case Ok(Some(track)) =>
        if Some(track.uri) == s.lastTrackUri then s
        else
          var seen := s.(lastTrackUri := Some(track.uri));
          if rateLimitedAfterRead then seen
          else
            match checks
            case Err(_) => seen
            case Ok((liked, inPlaylist)) => seen.(isDone := liked && inPlaylist)
  }

  /** A poll that sees the same track again changes nothing. */
  lemma SecondPollOnSameTrackIsInert(s: KeyState, playlistId: string,
                                     current: Result<Option<ApiClient.Playing>, ApiClient.ApiError>,
                                     checks: Result<(bool, bool), string>,
                                     checks2: Result<(bool, bool), string>)
    ensures var s1 := Poll(s, true, false, playlistId, current, false, checks);
            Poll(s1, true, false, playlistId, current, false, checks2) == s1
  {
  }

  /** After a settings change the next poll re-checks whatever is playing. */
  lemma SettingsChangeForcesRecheck(s: KeyState, playlistId: string,
                                    current: Result<Option<ApiClient.Playing>, ApiClient.ApiError>,
                                    liked: bool, inPlaylist: bool)
    requires playlistId != "" && PlayingItem(current).Ok? && PlayingItem(current).value.Some?
    ensures var s' := Poll(SettingsChanged(s), true, false, playlistId, current, false, Ok((liked, inPlaylist)));
            s'.isDone == (liked && inPlaylist) && s'.lastTrackUri == Some(PlayingItem(current).value.value.uri)
  {
  }
}

=== FILE: like_track.dfy ===
/** The "like" key of actions/like-track.ts: `isLiked` mirrors whether the
    current track is saved in the library; a press saves or removes it. */
module LikeTrackKey {
  import opened Wrappers
  import opened ActionKit
  import opened Http
  import ApiClient

  datatype KeyState = KeyState(lastTrackUri: Option<string>, isLiked: bool)

  const Initial: KeyState := KeyState(None, false)

  /** The title the key returns to two seconds after a press. */
  function RestingTitle(isLiked: bool): (t: string)
    ensures t == "Liked" <==> isLiked
    ensures t == "Like" <==> !isLiked
  {
    if isLiked then "Liked" else "Like"
  }

  /** A press and whether it scheduled the title to return to rest. */
  datatype LikePress = LikePress(press: Press<KeyState>, restoresTitle: bool)

  /** `onKeyDown`: while liked the track is removed from the library,
      otherwise saved; `toggle` is the reply to that request, and the flag
      flips only when it is OK. Every outcome but "no track" and "not
      authorized" schedules the title to return to rest. */
  function KeyDown(s: KeyState, authorized: bool,
                   current: Result<Option<ApiClient.Playing>, ApiClient.ApiError>,
                   toggle: Result<Response<()>, ApiClient.FetchError>): (r: LikePress)
    ensures r.press.state.lastTrackUri == s.lastTrackUri
    ensures !authorized ==> r.press.state == s && r.press.calls == [] && !r.restoresTitle
    ensures r.press.state.isLiked != s.isLiked <==>
              authorized && PlayingItem(current).Ok? && PlayingItem(current).value.Some? && toggle.Ok? && IsOk(toggle.value.status)
    ensures RemoveFromLibrary in r.press.calls ==> s.isLiked
    ensures SaveToLibrary in r.press.calls ==> !s.isLiked
  {
    if !authorized then LikePress(Press(s, "Auth\nFirst!", ShowAlert, []), false)
    else
      match PlayingItem(current)
      case Err(_) => LikePress(Press(s, "Error", ShowAlert, [ReadCurrentTrack]), true)
      case Ok(None) => LikePress(Press(s, "No\nTrack", ShowAlert, [ReadCurrentTrack]), false)
      case Ok(Some(track)) =>
        var calls := [ReadCurrentTrack, if s.isLiked then RemoveFromLibrary else SaveToLibrary];
        var settled := ApiClient.Mutation(if s.isLiked then "Remove from library" else "Save to library", toggle);
        if settled.Rejected? then LikePress(Press(s, "Error", ShowAlert, calls), true)
        else if s.isLiked then LikePress(Press(s.(isLiked := false), "Unliked", ShowOk, calls), true)
        else LikePress(Press(s.(isLiked := true), "Liked!", ShowOk, calls), true)
  }

  /** Two successful presses on the same track return the flag to where
      it started. */
  lemma TwoPressesRestore(s: KeyState, current: Result<Option<ApiClient.Playing>, ApiClient.ApiError>,
                          first: Response<()>, second: Response<()>)
    requires PlayingItem(current).Ok? && PlayingItem(current).value.Some?
    requires IsOk(first.status) && IsOk(second.status)
    ensures var once := KeyDown(s, true, current, Ok(first)).press.state;
            KeyDown(once, true, current, Ok(second)).press.state == s
  {
  }

  /** The poll (every 10 s): when the current track differs from the last
      one seen, remember it and take `isLiked` from the library check; the
      resting title follows. */
  function Poll(s: KeyState, authorized: bool,
                current: Result<Option<ApiClient.Playing>, ApiClient.ApiError>,
                saved: Result<bool, string>): (s': KeyState)
    ensures s'.isLiked != s.isLiked ==>
              && PlayingItem(current).Ok? && PlayingItem(current).value.Some?
              && s.lastTrackUri != Some(PlayingItem(current).value.value.uri)
              && saved.Ok? && s'.isLiked == saved.value
    ensures s'.lastTrackUri != s.lastTrackUri ==>
              && authorized && PlayingItem(current).Ok? && PlayingItem(current).value.Some?
              && s'.lastTrackUri == Some(PlayingItem(current).value.value.uri)
    ensures authorized && PlayingItem(current).Ok? && PlayingItem(current).value.Some? ==>
              && s'.lastTrackUri == Some(PlayingItem(current).value.value.uri)
              && (s.lastTrackUri != Some(PlayingItem(current).value.value.uri) && saved.Ok? ==>
                    s'.isLiked == saved.value)
  {
    if !authorized then s
    else
      match PlayingItem(current)
      case Err(_) => s
      case Ok(None) => s
      case Ok(Some(track)) =>
        if Some(track.uri) == s.lastTrackUri then s
        else
          var seen := s.(lastTrackUri := Some(track.uri));
          match saved
          case Err(_) => seen
          case Ok(b) => seen.(isLiked := b)
  }

  /** A poll that sees the same track again changes nothing, so the
      library is read once per track rather than on every tick. */
  lemma SecondPollOnSameTrackIsInert(s: KeyState, current: Result<Option<ApiClient.Playing>, ApiClient.ApiError>,
                                     saved: Result<bool, string>, saved2: Result<bool, string>)
    ensures var s1 := Poll(s, true, current, saved);
            Poll(s1, true, current, saved2) == s1
  {
  }

  /** A poll that sees a new track and reads the library adopts its answer. */
  lemma NewTrackAdoptsLibrary(s: KeyState, current: Result<Option<ApiClient.Playing>, ApiClient.ApiError>, b: bool)
    requires PlayingItem(current).Ok? && PlayingItem(current).value.Some?
    requires s.lastTrackUri != Some(PlayingItem(current).value.value.uri)
    ensures var s' := Poll(s, true, current, Ok(b));
            s'.isLiked == b && RestingTitle(s'.isLiked) == (if b then "Liked" else "Like")
  {
  }
}

=== FILE: playlists.dfy ===
/** `getUserPlaylists` and `fetchPlaylistsInternal` of spotify-api.ts: a
    paged listing (at most 4 pages of 50) that keeps what it gathered when
    a later page fails, behind a cache with a 120 s lifetime, a 60 s
    cooldown after a failed fetch, and one in-flight slot that concurrent
    callers share. */
module Playlists {
  import opened Wrappers
  import opened Http
  import ApiClient

  const PageSize: nat := 50
  const MaxPages: nat := 4
  const CacheTtlMs: int := 120_000
  const ErrorCooldownMs: int := 60_000

  /** The `{ total }` object a raw playlist carries under `tracks` or `items`. */
  datatype TrackCount = TrackCount(total: Option<int>)

  /** A playlist as the listing returns it; the track count sits under
      `tracks` in one version of the Web API and under `items` in another. */
  datatype RawPlaylist = RawPlaylist(id: string, name: string, tracks: Option<TrackCount>, items: Option<TrackCount>)

  /** One page: its `items` (an entry may be null) and its `next` link. */
  datatype Page = Page(items: Option<seq<Option<RawPlaylist>>>, next: Option<string>)

  /** `PlaylistInfo`, the normalised entry handed to callers. */
  datatype PlaylistInfo = PlaylistInfo(id: string, name: string, tracks: int)

  type PageFetch = Result<Response<Page>, ApiClient.FetchError>

  /** The track count: `total` of `tracks`, or of `items` when `tracks` is
      absent; 0 when that object or its `total` is missing. */
  function Normalize(raw: RawPlaylist): (p: PlaylistInfo)
    ensures p.id == raw.id && p.name == raw.name
    ensures raw.tracks.Some? ==> p.tracks == raw.tracks.value.total.GetOr(0)
    ensures raw.tracks.None? && raw.items.Some? ==> p.tracks == raw.items.value.total.GetOr(0)
    ensures raw.tracks.None? && raw.items.None? ==> p.tracks == 0
  {
    var count := if raw.tracks.Some? then raw.tracks else raw.items;
    PlaylistInfo(raw.id, raw.name, if count.Some? then count.value.total.GetOr(0) else 0)
  }

  /** The entries of one page, null entries skipped, order kept. */
  function NormalizePage(items: seq<Option<RawPlaylist>>): (ps: seq<PlaylistInfo>)
    ensures |ps| <= |items|
    ensures (forall i | 0 <= i < |items| :: items[i].Some?) ==> |ps| == |items|
  {
    if items == [] then []
    else (if items[0].Some? then [Normalize(items[0].value)] else []) + NormalizePage(items[1..])
  }

  /** One item becomes one entry, or none when it is null; with
      NormalizePageConcat this fixes NormalizePage on every page. */
  lemma NormalizePageOne(item: Option<RawPlaylist>)
    ensures item.Some? ==> NormalizePage([item]) == [Normalize(item.value)]
    ensures item.None? ==> NormalizePage([item]) == []
  {
  }

  /** A page holds the normalised form of every non-null item and nothing
      else. */
  lemma {:induction false} NormalizePageMembers(items: seq<Option<RawPlaylist>>)
    ensures forall x :: x in NormalizePage(items) <==>
                          exists i | 0 <= i < |items| :: items[i].Some? && x == Normalize(items[i].value)
    decreases |items|
  {
    if items != [] {
      var tail := items[1..];
      NormalizePageMembers(tail);
      forall x | x in NormalizePage(items)
        ensures exists i | 0 <= i < |items| :: items[i].Some? && x == Normalize(items[i].value)
      {
        if !(items[0].Some? && x == Normalize(items[0].value)) {
          var j :| 0 <= j < |tail| && tail[j].Some? && x == Normalize(tail[j].value);
          assert items[j + 1] == tail[j];
        }
      }
      forall x, i | 0 <= i < |items| && items[i].Some? && x == Normalize(items[i].value)
        ensures x in NormalizePage(items)
      {
        if i > 0 {
          assert tail[i - 1] == items[i];
        }
      }
    }
  }

  /** Normalising keeps page order: the entries of two runs of items are
      the entries of the first followed by those of the second. */
  lemma {:induction false} NormalizePageConcat(a: seq<Option<RawPlaylist>>, b: seq<Option<RawPlaylist>>)
    ensures NormalizePage(a + b) == NormalizePage(a) + NormalizePage(b)
    decreases |a|
  {
    if a != [] {
      assert (a + b)[1..] == a[1..] + b;
      NormalizePageConcat(a[1..], b);
    } else {
      assert a + b == b;
    }
  }

  /** The page the `p`-th request gets; requests the script does not reach
      fail as if the network did. */
  function PageAt(pages: seq<PageFetch>, p: nat): PageFetch {
    if p < |pages| then pages[p] else Err(ApiClient.NetworkFailure)
  }

  /** A page that was fetched, OK, and parsed. */
  predicate GoodPage(f: PageFetch) {
    f.Ok? && IsOk(f.value.status) && f.value.body.Some?
  }

  /** The normalised entries of a good page ([] for any other). */
  function EntriesOf(f: PageFetch): seq<PlaylistInfo> {
    if GoodPage(f) then NormalizePage(f.value.body.value.items.GetOr([])) else []
  }

  /** The entries of pages `from` .. `to - 1`, in page order: a reference
      for what the loop gathers. */
  function Gathered(pages: seq<PageFetch>, from: nat, to: nat): seq<PlaylistInfo>
    requires from <= to
    decreases (to as int) - (from as int)
  {
    if from == to then [] else EntriesOf(PageAt(pages, from)) + Gathered(pages, from + 1, to)
  }

  datatype PagingFailure = Failed(cause: ApiClient.FetchError) | Malformed

  /** How a listing ended: with the playlists gathered (possibly after a
      later page failed), with a failed page before anything was gathered
      (the only end that starts the cooldown), or with an error that
      escaped the loop (a failed `apiFetch` or an unparsable body). */
  datatype Listing =
    | Complete(playlists: seq<PlaylistInfo>)
    | NothingGathered(status: int)
    | Escaped(failure: PagingFailure)

  /** A listing and the offsets of the requests it sent, plus how many of
      them were good pages. */
  datatype Paging = Paging(listing: Listing, offsets: seq<int>, goodPages: nat)

  /** A good page whose `next` link is present and non-empty. */
  predicate HasNext(f: PageFetch) {
    GoodPage(f) && f.value.body.value.next.Some? && f.value.body.value.next.value != ""
  }

  /** What the loop promises from page `p` on, having gathered `all`:
      requests at consecutive offsets, at most one per remaining page, and
      every page before the last one requested had a `next` link. The good
      pages counted are a run starting at `p`, followed by at most one page
      that was not good. Ending on good pages completes the listing, and
      ending short of the page limit means the last page had no `next`.
      Ending on a page that was not good escapes exactly when that page's
      request failed or its OK response had no body. It fails for that
      page's status exactly when the status was not OK and nothing was
      gathered, and otherwise completes. A complete listing is `all`
      followed by the entries of the good pages. */
  predicate LoopFacts(pages: seq<PageFetch>, p: nat, offset: int, all: seq<PlaylistInfo>, r: Paging)
    requires p <= MaxPages
  {
    && |r.offsets| <= MaxPages - p
    && (p < MaxPages ==> |r.offsets| >= 1)
    && (forall i | 0 <= i < |r.offsets| :: r.offsets[i] == offset + PageSize * i)
    && (forall i | p <= i < p + |r.offsets| - 1 :: HasNext(PageAt(pages, i)))
    && (r.goodPages == |r.offsets| || r.goodPages + 1 == |r.offsets|)
    && (forall i | p <= i < p + r.goodPages :: GoodPage(PageAt(pages, i)))
    && (r.goodPages == |r.offsets| ==> r.listing.Complete?)
    && (r.goodPages == |r.offsets| && 0 < r.goodPages && p + r.goodPages < MaxPages ==>
          !HasNext(PageAt(pages, p + r.goodPages - 1)))
    && (r.goodPages + 1 == |r.offsets| ==>
          var stop := PageAt(pages, p + r.goodPages);
          && !GoodPage(stop)
          && (r.listing.Escaped? <==> stop.Err? || (IsOk(stop.value.status) && stop.value.body.None?))
          && (r.listing.NothingGathered? <==> stop.Ok? && !IsOk(stop.value.status) && all + Gathered(pages, p, p + r.goodPages) == [])
          && (r.listing.NothingGathered? ==> r.listing.status == stop.value.status)
          && (stop.Err? ==> r.listing == Escaped(Failed(stop.error))))
    && (r.listing.Complete? ==> r.listing.playlists == all + Gathered(pages, p, p + r.goodPages))
    && (r.listing.NothingGathered? ==> all + Gathered(pages, p, p + r.goodPages) == [])
  }

  /** The loop of `fetchPlaylistsInternal` from page `p`, with `offset` the
      next offset and `all` what was gathered so far. */
  function PageLoop(pages: seq<PageFetch>, p: nat, offset: int, all: seq<PlaylistInfo>): (r: Paging)
    requires p <= MaxPages
    ensures LoopFacts(pages, p, offset, all, r)
    decreases MaxPages - p
  {
    if p == MaxPages then Paging(Complete(all), [], 0)
    else
      match PageAt(pages, p)
      case Err(e) => Paging(Escaped(Failed(e)), [offset], 0)
      case Ok(resp) =>
        if !IsOk(resp.status) then
          if |all| > 0 then Paging(Complete(all), [offset], 0)
          else Paging(NothingGathered(resp.status), [offset], 0)
        else
          match resp.body
          case None => Paging(Escaped(Malformed), [offset], 0)
          case Some(page) =>
            var all' := all + NormalizePage(page.items.GetOr([]));
            if page.next.None? || page.next.value == "" then
              LastPageFacts(pages, p, offset, all);
              Paging(Complete(all'), [offset], 1)
            else
              var rest := PageLoop(pages, p + 1, offset + PageSize, all');
              NextPageFacts(pages, p, offset, all, rest);
              Paging(rest.listing, [offset] + rest.offsets, rest.goodPages + 1)
  }

  /** The loop's promise after a good page without a `next` link. */
  lemma LastPageFacts(pages: seq<PageFetch>, p: nat, offset: int, all: seq<PlaylistInfo>)
    requires p < MaxPages && GoodPage(PageAt(pages, p)) && !HasNext(PageAt(pages, p))
    ensures LoopFacts(pages, p, offset, all, Paging(Complete(all + EntriesOf(PageAt(pages, p))), [offset], 1))
  {
    assert Gathered(pages, p, p + 1) == EntriesOf(PageAt(pages, p));
  }

  /** The loop's promise after a good page with a `next` link, from the
      promise of the rest of the loop. */
  lemma NextPageFacts(pages: seq<PageFetch>, p: nat, offset: int, all: seq<PlaylistInfo>, rest: Paging)
    requires p < MaxPages && HasNext(PageAt(pages, p))
    requires LoopFacts(pages, p + 1, offset + PageSize, all + EntriesOf(PageAt(pages, p)), rest)
    ensures LoopFacts(pages, p, offset, all, Paging(rest.listing, [offset] + rest.offsets, rest.goodPages + 1))
  {
    var n := rest.goodPages;
    assert Gathered(pages, p, p + 1 + n) == EntriesOf(PageAt(pages, p)) + Gathered(pages, p + 1, p + 1 + n);
    assert all + Gathered(pages, p, p + 1 + n) == (all + EntriesOf(PageAt(pages, p))) + Gathered(pages, p + 1, p + 1 + n);
    var offsets := [offset] + rest.offsets;
    forall i | 0 <= i < |offsets|
      ensures offsets[i] == offset + PageSize * i
    {
      if i > 0 {
        assert offsets[i] == rest.offsets[i - 1];
      }
    }
  }

  /** `fetchPlaylistsInternal`: at most four requests, at offsets 0, 50,
      100, 150 in turn; a complete listing is exactly the entries of the
      good pages, in page order. The listing escapes exactly when it stops
      on a page whose request failed or whose OK response had no body. It
      fails for a status exactly when it stops on a non-OK page with
      nothing gathered. */
  function FetchPlaylists(pages: seq<PageFetch>): (r: Paging)
    ensures 1 <= |r.offsets| <= MaxPages
    ensures forall i | 0 <= i < |r.offsets| :: r.offsets[i] == PageSize * i
    ensures r.goodPages <= |r.offsets|
    ensures forall i | 0 <= i < r.goodPages :: GoodPage(PageAt(pages, i))
    ensures r.listing.Complete? ==> r.listing.playlists == Gathered(pages, 0, r.goodPages)
    ensures r.listing.NothingGathered? ==> Gathered(pages, 0, r.goodPages) == []
    ensures LoopFacts(pages, 0, 0, [], r)
    ensures r.listing.Escaped? <==>
              && r.goodPages < |r.offsets|
              && (PageAt(pages, r.goodPages).Err? || (IsOk(PageAt(pages, r.goodPages).value.status) && PageAt(pages, r.goodPages).value.body.None?))
    ensures r.listing.NothingGathered? <==>
              && r.goodPages < |r.offsets|
              && PageAt(pages, r.goodPages).Ok? && !IsOk(PageAt(pages, r.goodPages).value.status)
              && Gathered(pages, 0, r.goodPages) == []
    ensures r.listing.NothingGathered? ==> r.listing.status == PageAt(pages, r.goodPages).value.status
  {
    var r := PageLoop(pages, 0, 0, []);
    assert [] + Gathered(pages, 0, r.goodPages) == Gathered(pages, 0, r.goodPages);
    assert forall i | 0 <= i < |r.offsets| :: r.offsets[i] == 0 + PageSize * i;
    r
  }

  /** A first page that comes back with a non-OK status fails the listing
      for that status after one request. */
  lemma FailedFirstPageFails(pages: seq<PageFetch>)
    requires PageAt(pages, 0).Ok? && !IsOk(PageAt(pages, 0).value.status)
    ensures FetchPlaylists(pages).listing == NothingGathered(PageAt(pages, 0).value.status)
    ensures FetchPlaylists(pages).offsets == [0]
  {
    var r := FetchPlaylists(pages);
    assert r.goodPages == 0;
  }

  /** A good page without a `next` link ends the listing right there. */
  lemma {:induction false} StopsWithoutNext(pages: seq<PageFetch>, p: nat, offset: int, all: seq<PlaylistInfo>)
    requires p < MaxPages && GoodPage(PageAt(pages, p))
    requires PageAt(pages, p).value.body.value.next in {None, Some("")}
    ensures PageLoop(pages, p, offset, all)
         == Paging(Complete(all + EntriesOf(PageAt(pages, p))), [offset], 1)
  {
  }

  /** A page that fails after something was gathered ends the listing with
      what was gathered so far. */
  lemma PartialListingKept(pages: seq<PageFetch>, p: nat, offset: int, all: seq<PlaylistInfo>)
    requires p < MaxPages && |all| > 0
    requires PageAt(pages, p).Ok? && !IsOk(PageAt(pages, p).value.status)
    ensures PageLoop(pages, p, offset, all) == Paging(Complete(all), [offset], 0)
  {
  }

  /** The cached listing and when it was fetched. */
  datatype CacheEntry = CacheEntry(data: seq<PlaylistInfo>, timestamp: int)

  /** The module-level state: the cache, whether a fetch is in flight, and
      the time of the last failed fetch (0 for none). */
  datatype Cache = Cache(entry: Option<CacheEntry>, inFlight: bool, lastFetchError: int)

  /** The state at start-up. */
  const Initial: Cache := Cache(None, false, 0)

  predicate Fresh(c: Cache, now: int) {
    c.entry.Some? && now - c.entry.value.timestamp < CacheTtlMs
  }

  /** `lastFetchError` is a timestamp read for its truthiness, so a
      failure recorded at time 0 does not start a cooldown. */
  function CoolingDown(c: Cache, now: int): (cooling: bool)
    ensures cooling <==> c.lastFetchError != 0 && now < c.lastFetchError + ErrorCooldownMs
    ensures c.lastFetchError == 0 ==> !cooling
  {
    c.lastFetchError != 0 && now - c.lastFetchError < ErrorCooldownMs
  }

  /** The data on hand: the cached listing, or none. */
  function OnHand(c: Cache): seq<PlaylistInfo> {
    if c.entry.Some? then c.entry.value.data else []
  }

  /** What a call of `getUserPlaylists` does first. */
  datatype Decision = ServeCache(data: seq<PlaylistInfo>) | ServeCooldown(data: seq<PlaylistInfo>) | JoinInFlight | StartFetch

  /** The decision: a fresh cache is served (before any cooldown is
      considered); in the cooldown the data on hand is served; a fetch in
      flight is joined; only otherwise is a new fetch started. */
  function Decide(c: Cache, now: int): (d: Decision)
    ensures d.ServeCache? <==> Fresh(c, now)
    ensures d.ServeCooldown? <==> !Fresh(c, now) && CoolingDown(c, now)
    ensures d.JoinInFlight? <==> !Fresh(c, now) && !CoolingDown(c, now) && c.inFlight
    ensures d.ServeCache? || d.ServeCooldown? ==> d.data == OnHand(c)
  {
    if Fresh(c, now) then ServeCache(c.entry.value.data)
    else if CoolingDown(c, now) then ServeCooldown(OnHand(c))
    else if c.inFlight then JoinInFlight
    else StartFetch
  }

  /** A call arriving: a started fetch takes the in-flight slot; nothing
      else changes the state. */
  function Begin(c: Cache, now: int): (res: (Cache, Decision))
    ensures res.1 == Decide(c, now)
    ensures res.1.StartFetch? ==> res.0 == c.(inFlight := true)
    ensures !res.1.StartFetch? ==> res.0 == c
  {
    var d := Decide(c, now);
    if d.StartFetch? then (c.(inFlight := true), d) else (c, d)
  }

  /** The end of a fetch, at time `now` (when the listing ended): the
      in-flight slot is released whatever happened; a complete listing
      (even a partial one) replaces the cache wholesale and clears the
      error time; a failure with nothing gathered records the error time;
      the cache is otherwise untouched. Every caller that joined gets the
      same result. */
  function Finish(c: Cache, listing: Listing, now: int): (res: (Cache, Result<seq<PlaylistInfo>, Listing>))
    ensures !res.0.inFlight
    ensures listing.Complete? ==> res.0.entry == Some(CacheEntry(listing.playlists, now)) && res.0.lastFetchError == 0
    ensures listing.Complete? <==> res.1.Ok?
    ensures listing.Complete? ==> res.1 == Ok(listing.playlists)
    ensures !listing.Complete? ==> res.0.entry == c.entry
    ensures listing.NothingGathered? ==> res.0.lastFetchError == now
    ensures listing.Escaped? ==> res.0.lastFetchError == c.lastFetchError
  {
    match listing
    case Complete(ps) => (Cache(Some(CacheEntry(ps, now)), false, 0), Ok(ps))
    case NothingGathered(_) => (c.(inFlight := false, lastFetchError := now), Err(listing))
    case Escaped(_) => (c.(inFlight := false), Err(listing))
  }

  /** While a fetch is in flight, a later caller never starts a second one:
      it is served from the cache or the cooldown, or joins. */
  lemma NoSecondFetchInFlight(c: Cache, t1: int, t2: int)
    requires Begin(c, t1).1.StartFetch? && t1 <= t2
    ensures Begin(Begin(c, t1).0, t2).1 == JoinInFlight
  {
  }

  /** A second call within 120 s of a completed fetch is served from the
      cache without a request. */
  lemma CacheServesWithinTtl(c: Cache, ps: seq<PlaylistInfo>, t1: int, t2: int)
    requires t1 <= t2 < t1 + CacheTtlMs
    ensures Decide(Finish(c, Complete(ps), t1).0, t2) == ServeCache(ps)
  {
  }

  /** After a fetch that failed before gathering anything, calls within
      60 s get the data on hand (or nothing) without a request; from 60 s
      on, a new fetch starts. */
  lemma CooldownAfterFailure(c: Cache, t0: int, t1: int, t2: int, status: int)
    requires Begin(c, t0).1.StartFetch? && 0 < t1 && t0 <= t1 <= t2
    ensures var c' := Finish(Begin(c, t0).0, NothingGathered(status), t1).0;
            && (t2 < t1 + ErrorCooldownMs ==> Decide(c', t2) == ServeCooldown(OnHand(c)))
            && (t2 >= t1 + ErrorCooldownMs ==> Decide(c', t2) == StartFetch)
  {
  }

  /** One call of `getUserPlaylists` with no other call in flight, given
      the pages the listing would receive: its result, the new state and
      the requests it sent. The call arrives at `now` and, when it fetches,
      the listing ends at `done`, after its requests and waits; the cache
      and the error time are stamped with `done`. */
  function GetUserPlaylists(c: Cache, now: int, done: int, pages: seq<PageFetch>): (res: (Cache, Result<seq<PlaylistInfo>, Listing>, nat))
    requires !c.inFlight
    ensures !res.0.inFlight
    ensures res.2 <= MaxPages
    ensures res.2 > 0 <==> !Fresh(c, now) && !CoolingDown(c, now)
    ensures res.2 == 0 ==> res.0 == c && res.1 == Ok(OnHand(c))
    ensures res.2 > 0 && FetchPlaylists(pages).listing.Complete? ==>
              && res.0.entry == Some(CacheEntry(FetchPlaylists(pages).listing.playlists, done))
              && res.0.lastFetchError == 0
              && res.1 == Ok(FetchPlaylists(pages).listing.playlists)
    ensures res.2 > 0 && FetchPlaylists(pages).listing.NothingGathered? ==>
              res.0.entry == c.entry && res.0.lastFetchError == done && res.1.Err?
    ensures res.2 > 0 && FetchPlaylists(pages).listing.Escaped? ==>
              && res.0.entry == c.entry && res.0.lastFetchError == c.lastFetchError
              && res.1 == Err(FetchPlaylists(pages).listing)
  {
    var (c1, d) := Begin(c, now);
    if !d.StartFetch? then (c, Ok(OnHand(c)), 0)
    else
      var paging := FetchPlaylists(pages);
      var (c2, result) := Finish(c1, paging.listing, done);
      (c2, result, |paging.offsets|)
  }

  /** A call that fetches and meets a non-OK first page fails, and every
      call in the 60 s after the listing ended is served the data on hand
      without a request. */
  lemma FailedFirstPageStartsCooldown(c: Cache, now: int, done: int, pages: seq<PageFetch>, later: int)
    requires !c.inFlight && !Fresh(c, now) && !CoolingDown(c, now)
    requires PageAt(pages, 0).Ok? && !IsOk(PageAt(pages, 0).value.status)
    requires 0 < done && now <= done <= later < done + ErrorCooldownMs
    ensures GetUserPlaylists(c, now, done, pages).1.Err?
    ensures Decide(GetUserPlaylists(c, now, done, pages).0, later) == ServeCooldown(OnHand(c))
  {
    FailedFirstPageFails(pages);
  }
}

=== FILE: text.dfy ===
/** String helpers shared by the key actions. Strings are sequences of
    Unicode scalar values; the source measures UTF-16 code units. */
module Text {

  /** The horizontal ellipsis U+2026 that marks a shortened title. */
  const Ellipsis: char := '\U{2026}'

  /** `trunc` of like-and-add.ts and add-to-playlist.ts: keep `s` when it
      fits in `n` characters, otherwise keep its first `n - 1` characters
      and append an ellipsis. JavaScript's `substring(0, -1)` is empty, so
      with `n == 0` a non-empty `s` becomes the ellipsis alone. */
  function Trunc(s: string, n: nat): (r: string)
    ensures |s| <= n ==> r == s
    ensures |s| > n && n >= 1 ==> |r| == n && r[..n - 1] == s[..n - 1] && r[n - 1] == Ellipsis
    ensures |s| > n && n == 0 ==> r == [Ellipsis]
    ensures |r| <= n || (n == 0 && |r| == 1)
  {
    if |s| > n then
      (if n >= 1 then s[..n - 1] else []) + [Ellipsis]
    else
      s
  }

  /** The decimal spelling of a natural number, as `${status}` renders an
      HTTP status inside an error message. */
  function Decimal(n: nat): (r: string)
    ensures |r| >= 1
    ensures forall i | 0 <= i < |r| :: '0' <= r[i] <= '9'
  {
    if n < 10 then [Digit(n)] else Decimal(n / 10) + [Digit(n % 10)]
  }

  /** The decimal spelling of any integer, with a leading minus sign when negative. */
  function SignedDecimal(n: int): string {
    if n >= 0 then Decimal(n) else "-" + Decimal(-n)
  }

  function Digit(d: nat): (c: char)
    requires d < 10
    ensures '0' <= c <= '9'
  {
    ['0', '1', '2', '3', '4', '5', '6', '7', '8', '9'][d]
  }
}

=== FILE: wrappers.dfy ===
/** Option, Result and Outcome: the shapes the model uses for the source's
    `null`, its thrown errors and its rejected promises. */
module Wrappers {

  /** A value that may be absent (`null` / `undefined` in the source). */
  datatype Option<+T> = None | Some(value: T) {

    /** The value, or `default` when absent: the source's `??` operator. */
    function GetOr(default: T): T {
      match this
      case Some(v) => v
      case None => default
    }
  }

  /** A computation that either produced a value or failed (threw). */
  datatype Result<+T, +E> = Ok(value: T) | Err(error: E)

  /** A computation that produces no value but may fail. */
  datatype Outcome<+E> = Pass | Fail(error: E)
}
